=== FILE: README.md ===
# NotionLikeApi core in Dafny

This project models the pure logic inside NotionLikeApi, a block-based
document editor with an Express/Prisma back end and a Vue front end. It
covers six parts:

- **Block tree assembly** (`buildBlockTree`). A flat list of blocks, each
  with an optional parent id, becomes a forest. The builder takes the blocks
  whose parent is the requested one and recurses on each block's id.
  `getBlocksByDocumentId` applies it to one document's blocks.
- **Workspace membership.** The `workspace` and `workspaceMember` tables are
  an in-memory map from (user, workspace) to a role, plus a map of
  workspaces. The operations are create workspace, add member, edit role,
  remove member and update workspace. Each keeps the handler's guard order,
  status codes and effect, with one exception. `addMember` sends a 400 on
  an id mismatch but does not return, so it goes on to insert.
  `WorkspaceController.AddMemberAsWritten` is that handler as written, and
  the request runs in `WorkspaceInvariants` use it.
  `WorkspaceController.AddMember` is the handler with the missing `return`
  supplied. The request schemas are validators over raw JSON values (absent,
  `null`, a string, or anything else). Each returns either the typed payload
  or the set of offending keys.
- **Block creation authorisation** (`createBlock`). This is the chain that
  decides from the user, the document, the membership and the role whether
  a block is created, and with which fields.
- **Client block list** (the Pinia block store). It covers local append,
  first-match patch and filter-delete on the loaded document's top-level
  blocks.
- **Relative time labels** (`timeAgo`). Elapsed seconds map to "just now",
  minutes, hours, days or the full date.
- **Client authentication and route guard.** This is the token held in
  memory and in local storage, and the navigation guard that sends
  signed-out users to the login page.

Termination of the tree builder is witnessed by a ghost rank map, through
the predicate `BlockTree.Ranked`. A block under a ranked parent is ranked
strictly lower than that parent, and every top-level block (null parent) is
ranked. So no chain of parent links that starts at a top-level block may
loop. For a request from the root, as `getBlocksByDocumentId` makes, that
is exactly when the builder's recursion is finite. The builder has no cycle
guard, so on a cycle reachable from the root the synchronous recursion goes
on until JavaScript throws a `RangeError` for the full call stack.
`getBlocksByDocumentId` catches that error
(src/controllers/block.controller.ts:90-91), and the generic branch of its
error handler answers 500 `{"error": "Internal Server Error"}`
(src/controllers/block.controller.ts:161-163). Cycles that no top-level
block leads to do no harm in the source, and the model allows them too.

The modules follow the source:

- `BlockTree` and `BlockTreeCount`: src/lib/buildBlockTree.ts
- `BlockController`: src/controllers/block.controller.ts
- `WorkspaceDto`: src/dtos/workspace.dto.ts
- `WorkspaceController`: src/controllers/workspace.controller.ts
- `WorkspaceInvariants`: what those handlers keep together
- `ClientBlockStore`: frontend/src/stores/block.ts
- `TimeAgo`: frontend/src/lib/utils.ts
- `UserStore`: frontend/src/stores/user.ts
- `RouterGuard`: frontend/src/router/index.ts
- `Enums`: src/typings/enums.ts
- `Wrappers`: the shared `Option` and `Result` types

Two behaviours of the code are easy to misread:

- The front end's document store fetches `/documents/${id}/full`
  (frontend/src/stores/document.ts:13), but no router serves that path. The
  handler that assembles a document's blocks, `getBlocksByDocumentId`
  (src/controllers/block.controller.ts:72-89), is mounted by no route at
  all. The block router serves only `/`, `/:id` and `/:id/children`
  (src/routes/block.router.ts:7-34), so this read path cannot be reached
  over HTTP as the code stands. The model still states what the handler
  does: it never checks that the document exists. For an unknown id it answers 200 with an empty forest
  (`BlockController.NoBlocksEmptyForest`).
- With no authenticated user, `createBlock` sets status 403 and returns
  without ending the response (src/controllers/block.controller.ts:13-15),
  so the client gets no reply at all (`BlockController.CreateReply.StatusOnly`).

## Model

| member | source | states |
|---|---|---|
| Enums.ParseRole | src/typings/enums.ts:1-5 | Only the three role names parse, and a parsed role's name is the input string. |
| WorkspaceDto.ValidateCreateWorkspace | src/dtos/workspace.dto.ts:5-12 | Accepted exactly when `name` and `userId` are both non-empty strings. The payload carries them unchanged. Otherwise each key that is absent, `null`, not a string or empty is reported. |
| WorkspaceDto.ValidateUpdateWorkspace | src/dtos/workspace.dto.ts:14-16 | Accepted exactly when `name` is absent or a non-empty string; a `null`, non-string or empty `name` is refused with the issue `name`. The payload holds the string when one was given, and no name otherwise. |
| WorkspaceDto.ValidateWorkspaceId | src/dtos/workspace.dto.ts:19-21 | The `id` route parameter is accepted exactly when non-empty. |
| WorkspaceDto.ParseInviteRole | src/dtos/workspace.dto.ts:34 | Yields role x exactly when the raw value is the string naming x and x is not owner. So "owner", `null` and non-strings are refused. |
| WorkspaceDto.ValidateInvite | src/dtos/workspace.dto.ts:31-35 | Accepted exactly when both ids are non-empty strings and the role is the string "editor" or "viewer". The accepted role is never owner. `role` is reported exactly when the role is bad. |
| WorkspaceDto.ValidateUpdateMemberRole | src/dtos/workspace.dto.ts:59-61 | Same schema as the invite, so an accepted role is editor or viewer. |
| WorkspaceDto.ValidateRemoveMember | src/dtos/workspace.dto.ts:37-40 | Accepted exactly when both ids are non-empty. Each missing key is reported. |
| WorkspaceController.CreateWorkspace | src/controllers/workspace.controller.ts:20-43 | Status 201 exactly when the payload is valid. Then the new workspace's only member is the creator, as owner, and every other workspace's roles are unchanged. An invalid payload gives 400 and no change. |
| WorkspaceController.AddMember | src/controllers/workspace.controller.ts:74-114 | The handler with a `return` after the mismatch reply, as its other guards have; the program as written is AddMemberAsWritten. Guards run in order: invalid input 400, id mismatch 400, missing workspace 404, existing membership 409. Status 201 exactly when all pass, and then exactly one membership with the requested role is added. Every non-201 reply leaves the store unchanged. |
| WorkspaceController.AddValidated | src/controllers/workspace.controller.ts:83-110 | The guards after validation: a missing workspace gives 404 and an existing membership gives 409, both with the store unchanged. Otherwise 201, the user holds the requested role in that workspace, and every other membership and the workspaces are unchanged. |
| WorkspaceController.AddMemberAsWritten | src/controllers/workspace.controller.ts:74-81 | Sends the same reply as the corrected handler. Invalid input throws before any database call, so the store is unchanged. After valid input, the store is whatever AddValidated produces, even after the mismatch 400. |
| WorkspaceController.MismatchInserts | src/controllers/workspace.controller.ts:79-110 | For every valid request with mismatching ids, an existing workspace and no membership yet: the reply is the mismatch 400, yet the membership is inserted. |
| WorkspaceController.MismatchStillInserts | src/controllers/workspace.controller.ts:79-110 | Concrete input: mismatching ids get the 400 reply, yet the membership is inserted. |
| WorkspaceController.MismatchLeavesStore | src/controllers/workspace.controller.ts:79-81 | The corrected handler answers a mismatch with 400 and the store unchanged. |
| WorkspaceController.EditMemberRole | src/controllers/workspace.controller.ts:116-160 | Invalid input 400, missing workspace 404, non-member 409, owner 409, each with no change. Otherwise 200, and only that member's role becomes the requested one. |
| WorkspaceController.RemoveMember | src/controllers/workspace.controller.ts:162-206 | Invalid parameters escape uncaught. Then missing workspace 404, non-member 409, owner 409, each with no change. Otherwise 200, and exactly that membership is removed. |
| WorkspaceController.UpdateWorkspace | src/controllers/workspace.controller.ts:208-228 | Invalid id or body 400, missing workspace 404. Otherwise a present name replaces the stored one, other workspaces and all memberships are untouched, and the reply carries the record read before the update. |
| WorkspaceInvariants.CreateOwners | src/controllers/workspace.controller.ts:24-37 | The new workspace's owner set is exactly the creator. Every other workspace's owner set is unchanged. |
| WorkspaceInvariants.AddMemberKeepsOwners | src/dtos/workspace.dto.ts:34 | Adding a member never changes who owns what. |
| WorkspaceInvariants.AddMemberAsWrittenKeepsOwners | src/controllers/workspace.controller.ts:79-110 | Even the insert after the mismatch reply never changes who owns what. |
| WorkspaceInvariants.EditMemberRoleKeepsOwners | src/controllers/workspace.controller.ts:139-142 | Editing a role never changes who owns what. |
| WorkspaceInvariants.RemoveMemberKeepsOwners | src/controllers/workspace.controller.ts:190-193 | Removing a member never changes who owns what. |
| WorkspaceInvariants.UpdateWorkspaceKeepsOwners | src/controllers/workspace.controller.ts:219-222 | Renaming a workspace never changes who owns what. |
| WorkspaceInvariants.AddKeeps | src/controllers/workspace.controller.ts:74-114 | addMember as written, including its insert after the mismatch reply, keeps every membership inside an existing workspace, exactly one owner per workspace, and every owner set. |
| WorkspaceInvariants.ApplyKeeps | src/controllers/workspace.controller.ts:20-206 | One request to any handler as written keeps referential integrity and exactly one owner per workspace. It never removes a workspace or changes an existing workspace's owners. |
| WorkspaceInvariants.RunKeepsOwners | src/controllers/workspace.controller.ts:20-228 | Along any sequence of requests to the handlers as written, the invariant holds throughout, and the owner set of every workspace present at the start never changes. |
| BlockTree.Select | src/lib/buildBlockTree.ts:4 | The filter keeps exactly the blocks whose parent id equals the requested one. |
| BlockTree.SelectCount | src/lib/buildBlockTree.ts:4 | The filter keeps each matching block as many times as it occurs and drops the rest. |
| BlockTree.SelectAppend | src/lib/buildBlockTree.ts:4 | The filter distributes over concatenation, so it keeps input order. |
| BlockTree.Attach | src/lib/buildBlockTree.ts:4 | The map step turns each selected block into exactly one node, in order and unchanged, whose whole subtree hangs under it by parent id. |
| BlockTree.BuildBlockTree | src/lib/buildBlockTree.ts:3-4 | The top-level nodes hold exactly the blocks under the requested parent, in input order and unchanged. Every node's children all name that node as parent. Empty input gives an empty forest. |
| BlockTree.ChildrenAreSubtrees | src/lib/buildBlockTree.ts:4 | Each top-level node's children are the builder's result for that node's id. |
| BlockTree.BuildMembers | src/lib/buildBlockTree.ts:4 | Every block anywhere in the forest is an input block, and its parent is the requested one or another input block. |
| BlockTree.OrphanHidden | src/lib/buildBlockTree.ts:4 | A block whose parent id names no input block appears nowhere in the forest built from the root. |
| BlockTree.NestedExample | src/lib/buildBlockTree.ts:3-4 | For any four distinct blocks linked as A over B and C, and B over D, the forest from the root is A holding B (holding D) and then C, with siblings kept in input order. |
| BlockTree.OrphanExample | src/lib/buildBlockTree.ts:4 | Any lone block that names a parent gives an empty forest from the root. |
| BlockTreeCount.EveryBlockOnce | src/lib/buildBlockTree.ts:3-4 | With unique ids, resolving parents and no parent cycle, the forest from the root holds every input block exactly once, so its node count equals the input length. |
| BlockController.CreateBlock | src/controllers/block.controller.ts:10-61 | Guards in order: no user: status 403 is set but no reply is ever sent; a rejected payload, unknown document 404, non-member 403, viewer 403, each with nothing created. Otherwise exactly one block is appended, with the payload's fields, the authenticated user as author, and the parent defaulting to none. |
| BlockController.RoutedCreateBlock | src/routes/block.router.ts:14-19 | Through the router no user reaches the handler, so every request only has status 403 set, is never answered, and creates nothing. |
| BlockController.EditorCreates | src/controllers/block.controller.ts:43-57 | Given the user, an editor does create the block, while the routed call refuses it. |
| BlockController.CreateKeepsRanked | src/controllers/block.controller.ts:48-56 | A block created under a fresh id keeps the stored blocks free of parent cycles reachable from the root. |
| BlockController.DocumentBlocks | src/controllers/block.controller.ts:81-85 | Keeps exactly the stored blocks whose document id is the requested one. |
| BlockController.DocumentRanked | src/controllers/block.controller.ts:81-88 | A termination witness for the whole store is one for each document's blocks, so every store the create handler builds can be listed. |
| BlockController.GetBlocksByDocumentId | src/controllers/block.controller.ts:72-93 | An empty id gives 404. Otherwise 200, and the forest is the tree builder's output from the root over the document's blocks, so BuildBlockTree's contract and lemmas apply to it. Every shown block is a stored block of that document. |
| BlockController.ListedNests | src/controllers/block.controller.ts:81-88 | Each top-level node of the reply carries as children the forest built below its own id from the same document's blocks. |
| BlockController.NoBlocksEmptyForest | src/controllers/block.controller.ts:81-89 | A document with no stored blocks gets 200 with an empty forest, whether or not it exists. |
| BlockController.ForeignParentHidden | src/controllers/block.controller.ts:81-88 | A block whose parent is not among the same document's blocks is not shown. |
| BlockController.WholeDocumentShown | src/controllers/block.controller.ts:81-88 | For well-formed document blocks, the reply shows each of them exactly once. |
| ClientBlockStore.Blocks | frontend/src/stores/block.ts:12 | Without a loaded document the view is an empty list; otherwise it is the document's own top-level blocks. |
| ClientBlockStore.AddBlock | frontend/src/stores/block.ts:14-28 | No-op without a document. Otherwise exactly one block is appended after the unchanged existing ones, with no children, the document's id and workspace, and the placeholder author. |
| ClientBlockStore.Assign | frontend/src/stores/block.ts:43 | Each field the patch carries overwrites the block's, each field it leaves out is kept, and the workspace id is never touched. So an empty patch changes nothing. |
| ClientBlockStore.AssignTwice | frontend/src/stores/block.ts:43 | Applying the same patch twice is applying it once. |
| ClientBlockStore.PatchFirst | frontend/src/stores/block.ts:41-44 | Only the first block with the id gets the patch. Every other position is unchanged and the length is kept. |
| ClientBlockStore.UpdateBlock | frontend/src/stores/block.ts:40-46 | No-op without a document. Otherwise only the first top-level match is patched and the document's other fields are untouched. |
| ClientBlockStore.UpdateAbsentNoChange | frontend/src/stores/block.ts:41-42 | An id carried by no top-level block changes nothing, even if a nested child carries it. |
| ClientBlockStore.Without | frontend/src/stores/block.ts:50 | Keeps exactly the blocks whose id differs from the target. |
| ClientBlockStore.WithoutAppend | frontend/src/stores/block.ts:50 | Removal distributes over concatenation, so it keeps the original order. |
| ClientBlockStore.DeleteBlock | frontend/src/stores/block.ts:48-53 | No-op without a document. Otherwise exactly the blocks with a different id remain and the document's other fields are untouched. |
| ClientBlockStore.DeleteInView | frontend/src/stores/block.ts:12-53 | After a delete, the `blocks` view is the old view without the deleted id, including the empty fallback when no document is loaded. |
| ClientBlockStore.DeleteIdempotent | frontend/src/stores/block.ts:48-53 | Deleting twice equals deleting once. |
| ClientBlockStore.AddThenDelete | frontend/src/stores/block.ts:14-53 | Deleting a block just added under an unused id restores the document. |
| TimeAgo.ElapsedSeconds | frontend/src/lib/utils.ts:22 | Whole seconds are floored from milliseconds, including for a future date. |
| TimeAgo.Label | frontend/src/lib/utils.ts:19-31 | The five buckets are disjoint and cover every elapsed time. Counts lie in 1-59 minutes, 1-23 hours and 1-6 days and bracket the elapsed time. An unparseable date gets the full date. |
| TimeAgo.LabelMonotone | frontend/src/lib/utils.ts:24-30 | An older moment never gets a finer label, and within one unit never a smaller count. |
| TimeAgo.FutureIsJustNow | frontend/src/lib/utils.ts:24 | A negative elapsed time reads as "just now". |
| TimeAgo.SameMinuteSameLabel | frontend/src/lib/utils.ts:25 | All moments within one minute of the first hour get the same minutes label. |
| UserStore.IsAuthenticated | frontend/src/stores/user.ts:8 | The getter is true exactly when the token is non-empty. |
| UserStore.Init | frontend/src/stores/user.ts:5 | The initial token is the stored `jwt` value, or empty when none is stored. |
| UserStore.Start | frontend/src/stores/user.ts:4-6 | A freshly created store agrees with storage. |
| UserStore.SetToken | frontend/src/stores/user.ts:11-14 | Memory and storage both hold the token. Authenticated exactly when it is non-empty. Other storage keys are untouched. |
| UserStore.Logout | frontend/src/stores/user.ts:15-18 | Signed out, with the `jwt` entry removed and other storage keys untouched. |
| UserStore.ActionsKeepSynced | frontend/src/stores/user.ts:5-18 | After either action, a reload from storage yields the in-memory state. |
| UserStore.LogoutSurvivesReload | frontend/src/stores/user.ts:15-18 | After logging out, a reload starts signed out. |
| UserStore.LogoutThenSetToken | frontend/src/stores/user.ts:11-18 | Logging in after logging out is the same as logging in. |
| RouterGuard.Resolve | frontend/src/router/index.ts:7-25 | A path names a route exactly when it matches that route's pattern under the router's default options: case-insensitive on ASCII letters, with one optional trailing slash. Any other path has no name. |
| RouterGuard.ResolveSpellings | frontend/src/router/index.ts:7-25 | "/Login" and "/LOGIN/" name the login page and "/signup/" the sign-up page, while "/login//" and "//" name nothing. |
| RouterGuard.ResolvePath | frontend/src/router/index.ts:9-25 | Every named route's path resolves back to it. |
| RouterGuard.Guard | frontend/src/router/index.ts:28-34 | Redirects exactly when signed out and not heading to Login, and only ever to Login. |
| RouterGuard.Navigate | frontend/src/router/index.ts:28-34 | Where a navigation ends, the guard lets it through. |
| RouterGuard.NoRedirectLoop | frontend/src/router/index.ts:31-32 | The redirect target is never redirected again. |
| RouterGuard.NavigationOutcome | frontend/src/router/index.ts:28-34 | From stored state: signed out, every path ends at Login. Signed in, every path is honoured. |
| RouterGuard.SignupUnreachableAfterLogout | frontend/src/router/index.ts:20-33 | After logging out, even the sign-up page redirects to Login, across a reload too. |

## Left out

- Prisma, MongoDB and every database call are replaced by in-memory maps and sequences. Database failures and the `handleError` mapping for Prisma error codes are not modelled. Of that mapping, only the validation branch is kept, as a 400 reply carrying the offending keys.
- Generated ids and timestamps (`uuid()`, Prisma's ObjectIds, `Date.now()`) are parameters. The caller supplies fresh ids.
- Express routing, `asyncHandler`, app bootstrap and the JSON response bodies beyond their status, message and payload are not modelled. The one router behaviour that matters is `BlockController.RoutedCreateBlock`.
- The block payload validator: block.controller.ts imports `validateCreateBlockPayload`, which src/dtos/block.dto.ts does not export. Its outcome is therefore an `Option` input to `CreateBlock`, and its schema is not part of this model.
- The `getBlocks`, `getBlockById` and `getBlockChildren` handlers, the read-only workspace handlers, and the user and document controllers. They are thin database queries, or they rely on password hashing and email checks in outside libraries.
- Authentication: JWT signing and checking and the passport strategies are outside libraries. The authenticated user is an `Option` input.
- BlockTree.BuildBlockTree: requires a rank witness over the whole input, so inputs with a parent cycle reachable from a top-level block are excluded, even for a request under a block id whose own subtree is finite. On a root request, the only kind the program makes, the excluded inputs are exactly those on which the builder recurses until the call stack overflows. Stack depth is not modelled, so a very deep tree with no cycle, which could also overflow the stack in the source, is built in full by the model.
- BlockController.CreateKeepsRanked: requires that the fresh id is not yet used as any block's id or parent. The datastore's id generation supplies that.
- BlockController.DocumentBlocks: keeps the store's order. `findMany` has no `orderBy`, so the database promises no order; store order is one order it may return, and the siblings in the reply follow it.
- BlockController.GetBlocksByDocumentId: requires a rank witness for the requested document's blocks, for the same reason as the tree builder. On the excluded inputs the handler catches the stack-overflow `RangeError` and answers 500 `{"error": "Internal Server Error"}`; that reply is not modelled.
- `JSON.stringify` of a new client block's content is not modelled: the content arrives serialised. The network POST after a local append is also left out.
- ClientBlockStore.Assign: the client block has no `parentId` field, so a patch cannot set it. In the source the field is an optional reference that the store never reads.
- `formatDate` is left out, because it depends on the local time zone. TimeAgo.Label returns `FullDate` without the formatted text, and the numeric labels are returned as counts rather than rendered strings.
- Vue reactivity, the `useAuth` composable, the `fetch` wrapper and the document store's fetch are left out. Browser local storage is a string map passed in and returned.

- RouterGuard.Resolve: takes the path component with query and hash already split off. Percent-decoding and the resolution of relative locations are not modelled.
- WorkspaceDto: a request body that is not a JSON object at all, which the schemas also refuse with 400, is not modelled. Body fields are raw JSON values and route parameters are strings or missing.

## Findings

| source | as written | input that shows it | evidently intended | confidence | as-written member | corrected member |
|---|---|---|---|---|---|---|
| src/controllers/workspace.controller.ts:79-81 | On a path id and body `workspaceId` mismatch the handler sends 400 but does not return. It goes on to insert the membership. | Workspace `w1` exists; request to path id `w2` with body `{workspaceId: "w1", userId: "u1", role: "editor"}` | Return right after the 400, leaving the store unchanged | not executed | WorkspaceController.MismatchStillInserts | WorkspaceController.MismatchLeavesStore |
| src/routes/block.router.ts:14-19 | The POST route passes only `{ body }` to `createBlock`, so the handler never sees a user: it only sets status 403 and leaves every request without a reply | Any block-creation request, including one from an editor of the document's workspace | Mount the JWT middleware (`authenticateJWT`, src/middleware/auth.middleware.ts:7) on `/blocks`, which src/routes/apiv1.ts:12 does not, and pass the whole request, so editors and owners can create blocks | not executed | BlockController.RoutedCreateBlock | BlockController.EditorCreates |

=== FILE: block_controller.dfy ===
/**
 * The block endpoints of src/controllers/block.controller.ts: the
 * authorisation and construction logic of createBlock, and the per-document
 * tree read of getBlocksByDocumentId.  The store is an in-memory value:
 * documents (only their workspace matters here), the membership table and
 * the stored blocks.
 */
module BlockController {
  import opened Wrappers
  import opened Enums
  import opened BlockTree
  import opened BlockTreeCount
  import WorkspaceController

  type MemberKey = WorkspaceController.MemberKey

  datatype Document = Document(workspaceId: string)

  datatype Store = Store(documents: map<string, Document>, members: map<MemberKey, Role>, blocks: seq<Block>)

  /** The validated create payload; its `createdById` is required but ignored. */
  datatype CreateBlockPayload = CreateBlockPayload(
    documentId: string,
    blockType: BlockType,
    content: string,
    createdById: string,
    parentId: Option<string>)

  /** What createBlock does with the response. */
  datatype CreateReply =
    | StatusOnly(status: nat)              // a status is set, but the response is never ended: the client gets no reply
    | Refused(status: nat, message: string)
    | PayloadRejected                      // the validator throws; the error handler answers
    | Created(status: nat, block: Block)

  /** `(req.user as any)?.id ?? ""`: the authenticated user id, or "" when there is none. */
  function AuthUserId(user: Option<string>): string
  {
    match user
    case None => ""
    case Some(id) => id
  }

  /** The role the user holds in the workspace owning the document, if any. */
  function WriterRole(s: Store, userId: string, documentId: string): Option<Role>
  {
    if documentId !in s.documents then None
    else
      var key := WorkspaceController.MemberKey(userId, s.documents[documentId].workspaceId);
      if key in s.members then Some(s.members[key]) else None
  }

  /** The rule createBlock enforces: a signed-in member of the document's workspace with a writing role. */
  predicate MayCreate(s: Store, user: Option<string>, payload: Option<CreateBlockPayload>)
  {
    && AuthUserId(user) != ""
    && payload.Some?
    && var role := WriterRole(s, AuthUserId(user), payload.value.documentId);
    && role.Some? && CanWrite(role.value)
  }

  /**
   * createBlock: the guards run in order (no user: status 403 set, no reply
   * ever sent; payload rejected; unknown document 404; not a member 403; viewer
   * 403).  A created block is appended to the store with the authenticated
   * user as author, whatever the payload claims, and a null parent unless
   * the payload names one; a refused request changes nothing.
   */
  function CreateBlock(s: Store, user: Option<string>, payload: Option<CreateBlockPayload>, freshId: string, now: int): (r: (Store, CreateReply))
    ensures r.1.Created? <==> MayCreate(s, user, payload)
    ensures !r.1.Created? ==> r.0 == s
    ensures AuthUserId(user) == "" ==> r.1 == StatusOnly(403)
    ensures AuthUserId(user) != "" && payload.None? ==> r.1 == PayloadRejected
    ensures AuthUserId(user) != "" && payload.Some? ==>
      var p := payload.value;
      && (p.documentId !in s.documents ==> r.1 == Refused(404, "Document not found"))
      && (p.documentId in s.documents && WriterRole(s, AuthUserId(user), p.documentId).None? ==> r.1.Refused? && r.1.status == 403)
      && (WriterRole(s, AuthUserId(user), p.documentId) == Some(Viewer) ==> r.1.Refused? && r.1.status == 403)
    ensures r.1.Created? ==>
      var p := payload.value;
      && r.1.status == 200
      && r.0 == Store(s.documents, s.members, s.blocks + [r.1.block])
      && r.1.block == Block(freshId, p.blockType, p.content, p.documentId, AuthUserId(user), p.parentId, now)
  {
    var userId := AuthUserId(user);
    if userId == "" then (s, StatusOnly(403))
    else if payload.None? then (s, PayloadRejected)
    else
      var p := payload.value;
      if p.documentId !in s.documents then (s, Refused(404, "Document not found"))
      else
        var role := WriterRole(s, userId, p.documentId);
        if role.None? then (s, Refused(403, "User does not belong to this workspace"))
        else if role.value != Owner && role.value != Editor then (s, Refused(403, "User is not allowed to create blocks"))
        else
          var block := Block(freshId, p.blockType, p.content, p.documentId, userId, p.parentId, now);
          (Store(s.documents, s.members, s.blocks + [block]), Created(200, block))
  }

  /**
   * createBlock as the block router calls it: the router passes only the
   * request body, so the handler never sees an authenticated user and every
   * request is left without a reply.
   */
  function RoutedCreateBlock(s: Store, payload: Option<CreateBlockPayload>, freshId: string, now: int): (r: (Store, CreateReply))
    ensures r == (s, StatusOnly(403))
  {
    CreateBlock(s, None, payload, freshId, now)
  }

  /** Handed the authenticated user, an editor of the document's workspace does create the block. */
  lemma EditorCreates(s: Store, userId: string, payload: CreateBlockPayload, freshId: string, now: int)
    requires userId != "" && WriterRole(s, userId, payload.documentId) == Some(Editor)
    ensures CreateBlock(s, Some(userId), Some(payload), freshId, now).1.Created?
    ensures RoutedCreateBlock(s, Some(payload), freshId, now).1 == StatusOnly(403)
  {
  }

  /** Raise every rank by one and rank the new id at the bottom. */
  ghost function MakeRoom(rank: map<string, nat>, freshId: string): map<string, nat>
  {
    (map k | k in rank :: rank[k] + 1)[freshId := 0]
  }

  /** `freshId` is neither a block id nor named as a parent by any stored block. */
  ghost predicate UnusedId(blocks: seq<Block>, rank: map<string, nat>, freshId: string)
  {
    freshId !in rank && forall b :: b in blocks ==> b.id != freshId && b.parentId != Some(freshId)
  }

  /**
   * A created block never closes a parent cycle: it takes a fresh id that no
   * stored block points at, so the tree builder's termination witness
   * survives (made room for the new block at the bottom).
   */
  lemma CreateKeepsRanked(s: Store, user: Option<string>, payload: Option<CreateBlockPayload>, freshId: string, now: int, rank: map<string, nat>)
    requires Ranked(s.blocks, rank) && UnusedId(s.blocks, rank, freshId)
    requires payload.Some? ==> payload.value.parentId != Some(freshId)
    ensures Ranked(CreateBlock(s, user, payload, freshId, now).0.blocks, MakeRoom(rank, freshId))
  {
    var r := CreateBlock(s, user, payload, freshId, now);
    var rank' := MakeRoom(rank, freshId);
    forall b | b in s.blocks ensures LinkRanked(b, rank') {
      assert LinkRanked(b, rank);
    }
    if r.1.Created? {
      assert r.0.blocks == s.blocks + [r.1.block];
      assert LinkRanked(r.1.block, rank');
    }
  }

  /** The blocks stored for one document, in store order. */
  function DocumentBlocks(blocks: seq<Block>, documentId: string): (r: seq<Block>)
    ensures forall b :: b in r <==> b in blocks && b.documentId == documentId
  {
    if |blocks| == 0 then []
    else (if blocks[0].documentId == documentId then [blocks[0]] else []) + DocumentBlocks(blocks[1..], documentId)
  }

  lemma {:induction false} NoDocumentBlocks(blocks: seq<Block>, documentId: string)
    requires forall b :: b in blocks ==> b.documentId != documentId
    ensures DocumentBlocks(blocks, documentId) == []
  {
    if |blocks| > 0 {
      NoDocumentBlocks(blocks[1..], documentId);
    }
  }

  /** A witness for the whole store is one for each document, so a store built by CreateBlock can always be listed. */
  lemma DocumentRanked(blocks: seq<Block>, id: string, rank: map<string, nat>)
    requires Ranked(blocks, rank)
    ensures Ranked(DocumentBlocks(blocks, id), rank)
  {
  }

  /** The reply of getBlocksByDocumentId. */
  datatype ListReply = Missing(status: nat, error: string) | Listed(status: nat, forest: seq<Node>)

  /**
   * getBlocksByDocumentId: an empty id is answered 404; otherwise the reply is
   * the forest built from the root over exactly that document's blocks.
   * Whether the document itself exists is never checked.
   */
  function GetBlocksByDocumentId(s: Store, id: string, ghost rank: map<string, nat>): (r: ListReply)
    requires id != "" ==> Ranked(DocumentBlocks(s.blocks, id), rank)
    ensures r.Missing? <==> id == ""
    ensures r.Missing? ==> r == Missing(404, "Document Id Is Reqruied")
    ensures r.Listed? ==>
      && r.status == 200
      && Roots(r.forest) == Select(DocumentBlocks(s.blocks, id), None)
      && Linked(r.forest, None)
      && (forall b :: b in Flatten(r.forest) ==> b in s.blocks && b.documentId == id)
      && r.forest == BuildBlockTree(DocumentBlocks(s.blocks, id), None, rank)
  {
    if id == "" then Missing(404, "Document Id Is Reqruied")
    else
      var docBlocks := DocumentBlocks(s.blocks, id);
      BuildMembers(docBlocks, None, rank);
      Listed(200, BuildBlockTree(docBlocks, None, rank))
  }

  /**
   * The reply nests: every top-level node carries as its children the forest
   * built below its own id from the same document's blocks.
   */
  lemma ListedNests(s: Store, id: string, rank: map<string, nat>)
    requires id != "" && Ranked(DocumentBlocks(s.blocks, id), rank)
    ensures var f := GetBlocksByDocumentId(s, id, rank).forest;
      forall i :: 0 <= i < |f| ==>
        f[i].children == BuildBlockTree(DocumentBlocks(s.blocks, id), Some(f[i].block.id), rank)
  {
    var docBlocks := DocumentBlocks(s.blocks, id);
    var f := GetBlocksByDocumentId(s, id, rank).forest;
    assert f == BuildBlockTree(docBlocks, None, rank);
    ChildrenAreSubtrees(docBlocks, None, rank);
  }

  /** A document with no stored blocks (existing or not) is answered 200 with an empty forest. */
  lemma NoBlocksEmptyForest(s: Store, id: string, rank: map<string, nat>)
    requires id != "" && Ranked(DocumentBlocks(s.blocks, id), rank)
    requires forall b :: b in s.blocks ==> b.documentId != id
    ensures GetBlocksByDocumentId(s, id, rank) == Listed(200, [])
  {
    NoDocumentBlocks(s.blocks, id);
  }

  /**
   * A block whose parent is not a block of the same document (a parent in
   * another document, or no such block at all) is left out of the reply.
   */
  lemma ForeignParentHidden(s: Store, id: string, rank: map<string, nat>, x: Block)
    requires id != "" && Ranked(DocumentBlocks(s.blocks, id), rank)
    requires x.parentId.Some?
    requires forall c :: c in s.blocks && c.documentId == id ==> c.id != x.parentId.value
    ensures x !in Flatten(GetBlocksByDocumentId(s, id, rank).forest)
  {
    OrphanHidden(DocumentBlocks(s.blocks, id), rank, x);
  }

  /**
   * When a document's blocks are well formed (unique ids, parents inside the
   * document, no cycle) the reply shows each of them exactly once.
   */
  lemma WholeDocumentShown(s: Store, id: string, rank: map<string, nat>)
    requires id != ""
    requires var docBlocks := DocumentBlocks(s.blocks, id);
      UniqueIds(docBlocks) && ParentsResolve(docBlocks) && Acyclic(docBlocks, rank)
    ensures multiset(Flatten(GetBlocksByDocumentId(s, id, rank).forest)) == multiset(DocumentBlocks(s.blocks, id))
    ensures |Flatten(GetBlocksByDocumentId(s, id, rank).forest)| == |DocumentBlocks(s.blocks, id)|
  {
    EveryBlockOnce(DocumentBlocks(s.blocks, id), rank);
  }
}

=== FILE: block_tree.dfy ===
/**
 * The flat-to-forest block builder of src/lib/buildBlockTree.ts.
 *
 * The builder keeps the input blocks whose parent reference equals the
 * requested parent (in input order) and gives each of them, as children, the
 * forest built with that block's id as the requested parent.  The source has
 * no cycle guard; here a ghost rank map witnesses that the recursion ends.
 */
module BlockTree {
  import opened Wrappers
  import opened Enums

  /** A stored block; `parentId == None` marks a top-level block. */
  datatype Block = Block(
    id: string,
    blockType: BlockType,
    content: string,
    documentId: string,
    createdById: string,
    parentId: Option<string>,
    createdAt: int)

  /** An output node: the copied block plus the `children` the builder adds. */
  datatype Node = Node(block: Block, children: seq<Node>)

  /**
   * Local acyclicity of one parent link: a top-level block is ranked, and a
   * block whose parent is ranked is ranked strictly below its parent.
   */
  ghost predicate LinkRanked(b: Block, rank: map<string, nat>)
  {
    match b.parentId
    case None => b.id in rank
    case Some(p) => p in rank ==> b.id in rank && rank[b.id] < rank[p]
  }

  /**
   * `rank` witnesses that no chain of parent links reachable from the
   * top-level blocks loops.  On a root request that is exactly when the
   * builder's recursion is finite; on a loop the source recurses until the
   * call stack overflows.  Cycles that no top-level block leads to are
   * tolerated, as in the source.
   */
  ghost predicate Ranked(blocks: seq<Block>, rank: map<string, nat>)
  {
    forall b :: b in blocks ==> LinkRanked(b, rank)
  }

  /** A requested parent is either the root (`None`) or a ranked id. */
  ghost predicate RootedIn(parent: Option<string>, rank: map<string, nat>)
  {
    parent.Some? ==> parent.value in rank
  }

  /** The root request sits above every block request. */
  ghost function Tier(parent: Option<string>): nat
  {
    if parent.None? then 1 else 0
  }

  /** The height of a requested parent id according to the rank map. */
  ghost function Level(parent: Option<string>, rank: map<string, nat>): nat
  {
    match parent
    case None => 0
    case Some(p) => if p in rank then rank[p] + 1 else 0
  }

  /** The filter step: the blocks whose parent reference is `parent`, in input order. */
  function Select(blocks: seq<Block>, parent: Option<string>): (r: seq<Block>)
    ensures forall b :: b in r <==> b in blocks && b.parentId == parent
    ensures |r| <= |blocks|
  {
    if |blocks| == 0 then []
    else (if blocks[0].parentId == parent then [blocks[0]] else []) + Select(blocks[1..], parent)
  }

  /** The filter keeps every copy of a selected block and no copy of any other. */
  lemma {:induction false} SelectCount(blocks: seq<Block>, parent: Option<string>, x: Block)
    ensures multiset(Select(blocks, parent))[x] == if x.parentId == parent then multiset(blocks)[x] else 0
  {
    if |blocks| > 0 {
      assert blocks == [blocks[0]] + blocks[1..];
      SelectCount(blocks[1..], parent, x);
    }
  }

  /** The blocks copied into the top level of a forest, in order. */
  function Roots(f: seq<Node>): (r: seq<Block>)
    ensures |r| == |f|
    ensures forall i :: 0 <= i < |f| ==> r[i] == f[i].block
  {
    seq(|f|, i requires 0 <= i < |f| => f[i].block)
  }

  /** The top-level blocks of a non-empty forest: the first node's block, then the rest. */
  lemma RootsSplit(f: seq<Node>)
    requires |f| > 0
    ensures Roots(f) == [f[0].block] + Roots(f[1..])
  {
    var r, s := Roots(f), [f[0].block] + Roots(f[1..]);
    forall i | 0 <= i < |r| ensures r[i] == s[i] {
      if i > 0 {
        assert s[i] == Roots(f[1..])[i - 1];
      }
    }
  }

  /** Every node of the forest, at every depth, hangs under the parent its block names. */
  ghost predicate Linked(f: seq<Node>, parent: Option<string>)
    decreases f
  {
    forall i :: 0 <= i < |f| ==>
      f[i].block.parentId == parent && Linked(f[i].children, Some(f[i].block.id))
  }

  /**
   * buildBlockTree(blocks, parentId): the top level holds exactly the selected
   * blocks in input order, and every node at every depth is linked to its
   * parent by the block's own `parentId`.
   */
  function BuildBlockTree(blocks: seq<Block>, parent: Option<string>, ghost rank: map<string, nat>): (r: seq<Node>)
    requires Ranked(blocks, rank) && RootedIn(parent, rank)
    ensures Roots(r) == Select(blocks, parent)
    ensures Linked(r, parent)
    ensures |blocks| == 0 ==> r == []
    decreases Tier(parent), Level(parent, rank), 1, 0
  {
    Attach(blocks, Select(blocks, parent), parent, rank)
  }

  /** The map step: each selected block becomes a node whose children are built below its id. */
  function Attach(blocks: seq<Block>, sel: seq<Block>, parent: Option<string>, ghost rank: map<string, nat>): (r: seq<Node>)
    requires Ranked(blocks, rank) && RootedIn(parent, rank)
    requires forall b :: b in sel ==> b in blocks && b.parentId == parent
    ensures Roots(r) == sel
    ensures Linked(r, parent)
    decreases Tier(parent), Level(parent, rank), 0, |sel|
  {
    if |sel| == 0 then []
    else
      var b := sel[0];
      HeadRanked(blocks, sel, parent, rank);
      var head := Node(b, BuildBlockTree(blocks, Some(b.id), rank));
      var rest := Attach(blocks, sel[1..], parent, rank);
      ConsShape(head, rest, parent);
      [head] + rest
  }

  /** The first selected block is ranked below the requested parent, and the rest stay selected. */
  lemma HeadRanked(blocks: seq<Block>, sel: seq<Block>, parent: Option<string>, rank: map<string, nat>)
    requires Ranked(blocks, rank) && RootedIn(parent, rank)
    requires forall b :: b in sel ==> b in blocks && b.parentId == parent
    requires |sel| > 0
    ensures sel[0].id in rank
    ensures Tier(Some(sel[0].id)) < Tier(parent) || Level(Some(sel[0].id), rank) < Level(parent, rank)
    ensures Tier(Some(sel[0].id)) <= Tier(parent)
    ensures forall b :: b in sel[1..] ==> b in blocks && b.parentId == parent
    ensures sel == [sel[0]] + sel[1..]
  {
    assert sel[0] in sel;
    assert LinkRanked(sel[0], rank);
  }

  /** Putting one linked node in front of a linked forest keeps it linked. */
  lemma ConsShape(head: Node, rest: seq<Node>, parent: Option<string>)
    requires head.block.parentId == parent && Linked(head.children, Some(head.block.id))
    requires Linked(rest, parent)
    ensures Roots([head] + rest) == [head.block] + Roots(rest)
    ensures Linked([head] + rest, parent)
  {
    var f := [head] + rest;
    forall i | 0 <= i < |f|
      ensures f[i].block.parentId == parent && Linked(f[i].children, Some(f[i].block.id))
    {
      if i > 0 {
        assert f[i] == rest[i - 1];
      }
    }
  }

  /** Preorder listing of every node's block in a forest. */
  function Flatten(f: seq<Node>): seq<Block>
    decreases f
  {
    if |f| == 0 then [] else [f[0].block] + Flatten(f[0].children) + Flatten(f[1..])
  }

  /** `Flatten` of a forest with one more node in front. */
  lemma FlattenCons(head: Node, rest: seq<Node>)
    ensures Flatten([head] + rest) == [head.block] + Flatten(head.children) + Flatten(rest)
  {
    assert ([head] + rest)[0] == head;
    assert ([head] + rest)[1..] == rest;
  }

  /** The filter keeps input order: selecting from a concatenation concatenates the selections. */
  lemma {:induction false} SelectAppend(a: seq<Block>, b: seq<Block>, parent: Option<string>)
    ensures Select(a + b, parent) == Select(a, parent) + Select(b, parent)
  {
    if |a| > 0 {
      var h := if a[0].parentId == parent then [a[0]] else [];
      assert (a + b)[0] == a[0];
      assert (a + b)[1..] == a[1..] + b;
      calc {
        Select(a + b, parent);
        h + Select(a[1..] + b, parent);
        { SelectAppend(a[1..], b, parent); }
        h + (Select(a[1..], parent) + Select(b, parent));
        (h + Select(a[1..], parent)) + Select(b, parent);
        Select(a, parent) + Select(b, parent);
      }
    } else {
      assert a + b == b;
    }
  }

  /** Each top-level node's children are the forest built with that node's id as the parent. */
  lemma ChildrenAreSubtrees(blocks: seq<Block>, parent: Option<string>, rank: map<string, nat>)
    requires Ranked(blocks, rank) && RootedIn(parent, rank)
    ensures var r := BuildBlockTree(blocks, parent, rank);
      forall i :: 0 <= i < |r| ==>
        r[i].block.id in rank && r[i].children == BuildBlockTree(blocks, Some(r[i].block.id), rank)
  {
    var r := BuildBlockTree(blocks, parent, rank);
    assert r == Attach(blocks, Select(blocks, parent), parent, rank);
    AttachChildren(blocks, Select(blocks, parent), parent, rank);
  }

  lemma {:induction false} AttachChildren(blocks: seq<Block>, sel: seq<Block>, parent: Option<string>, rank: map<string, nat>)
    requires Ranked(blocks, rank) && RootedIn(parent, rank)
    requires forall b :: b in sel ==> b in blocks && b.parentId == parent
    ensures var r := Attach(blocks, sel, parent, rank);
      forall i :: 0 <= i < |r| ==>
        r[i].block.id in rank && r[i].children == BuildBlockTree(blocks, Some(r[i].block.id), rank)
    decreases |sel|
  {
    if |sel| > 0 {
      assert LinkRanked(sel[0], rank);
      AttachChildren(blocks, sel[1..], parent, rank);
      var r := Attach(blocks, sel, parent, rank);
      forall i | 0 <= i < |r|
        ensures r[i].block.id in rank && r[i].children == BuildBlockTree(blocks, Some(r[i].block.id), rank)
      {
        if i > 0 {
          assert r[i] == Attach(blocks, sel[1..], parent, rank)[i - 1];
        }
      }
    }
  }

  /** `b`'s parent reference names some block of `blocks`. */
  ghost predicate HasParentIn(b: Block, blocks: seq<Block>)
  {
    exists c :: c in blocks && b.parentId == Some(c.id)
  }

  /**
   * Every block shown anywhere in the forest is an input block, and it is
   * either a top-level pick or hangs under a block that exists in the input.
   */
  lemma {:induction false} BuildMembers(blocks: seq<Block>, parent: Option<string>, rank: map<string, nat>)
    requires Ranked(blocks, rank) && RootedIn(parent, rank)
    ensures forall b :: b in Flatten(BuildBlockTree(blocks, parent, rank)) ==>
      b in blocks && (b.parentId == parent || HasParentIn(b, blocks))
    decreases Tier(parent), Level(parent, rank), 1, 0
  {
    AttachMembers(blocks, Select(blocks, parent), parent, rank);
  }

  lemma {:induction false} AttachMembers(blocks: seq<Block>, sel: seq<Block>, parent: Option<string>, rank: map<string, nat>)
    requires Ranked(blocks, rank) && RootedIn(parent, rank)
    requires forall b :: b in sel ==> b in blocks && b.parentId == parent
    ensures forall b :: b in Flatten(Attach(blocks, sel, parent, rank)) ==>
      b in blocks && (b.parentId == parent || HasParentIn(b, blocks))
    decreases Tier(parent), Level(parent, rank), 0, |sel|
  {
    if |sel| > 0 {
      var s := sel[0];
      assert LinkRanked(s, rank);
      BuildMembers(blocks, Some(s.id), rank);
      AttachMembers(blocks, sel[1..], parent, rank);
      var head := Node(s, BuildBlockTree(blocks, Some(s.id), rank));
      var rest := Attach(blocks, sel[1..], parent, rank);
      FlattenCons(head, rest);
      forall b | b in Flatten(head.children)
        ensures HasParentIn(b, blocks)
      {
        if b.parentId == Some(s.id) {
          assert s in blocks;
        }
      }
    }
  }

  /**
   * A block whose parent reference names no input block is dropped: it
   * appears nowhere in the forest built from the root.
   */
  lemma OrphanHidden(blocks: seq<Block>, rank: map<string, nat>, x: Block)
    requires Ranked(blocks, rank)
    requires x.parentId.Some?
    requires forall c :: c in blocks ==> c.id != x.parentId.value
    ensures x !in Flatten(BuildBlockTree(blocks, None, rank))
  {
    BuildMembers(blocks, None, rank);
  }

  /**
   * The shape of the worked example A{B{D}, C}: `a` is top-level, `b` and `c`
   * name `a` as parent, `d` names `b`, and the four ids differ.
   */
  predicate ExampleShape(a: Block, b: Block, c: Block, d: Block)
  {
    && a.parentId == None && b.parentId == Some(a.id) && c.parentId == Some(a.id) && d.parentId == Some(b.id)
    && a.id != b.id && a.id != c.id && a.id != d.id && b.id != c.id && b.id != d.id && c.id != d.id
  }

  /** A rank map witnessing that the example has no cycle. */
  ghost function ExampleRank(a: Block, b: Block, c: Block, d: Block): map<string, nat>
  {
    map[a.id := 3, b.id := 2, c.id := 2, d.id := 1]
  }

  lemma ExampleRanked(a: Block, b: Block, c: Block, d: Block)
    requires ExampleShape(a, b, c, d)
    ensures Ranked([a, b, c, d], ExampleRank(a, b, c, d))
  {
    var rank := ExampleRank(a, b, c, d);
    assert LinkRanked(a, rank) && LinkRanked(b, rank) && LinkRanked(c, rank) && LinkRanked(d, rank);
  }

  /** The filter on a single block. */
  lemma SelectOne(x: Block, parent: Option<string>)
    ensures Select([x], parent) == if x.parentId == parent then [x] else []
  {
    assert [x][1..] == [];
  }

  /** The filter over the example list, one block at a time. */
  lemma ExampleSelect(a: Block, b: Block, c: Block, d: Block, parent: Option<string>)
    ensures Select([a, b, c, d], parent)
      == (if a.parentId == parent then [a] else []) + (if b.parentId == parent then [b] else [])
       + (if c.parentId == parent then [c] else []) + (if d.parentId == parent then [d] else [])
  {
    assert [a, b, c, d] == [a] + [b] + [c] + [d];
    SelectAppend([a] + [b] + [c], [d], parent);
    SelectAppend([a] + [b], [c], parent);
    SelectAppend([a], [b], parent);
    SelectOne(a, parent);
    SelectOne(b, parent);
    SelectOne(c, parent);
    SelectOne(d, parent);
  }

  /** The filter step on each parent key of the example. */
  lemma ExampleSelectRoot(a: Block, b: Block, c: Block, d: Block)
    requires ExampleShape(a, b, c, d)
    ensures Select([a, b, c, d], None) == [a]
  {
    ExampleSelect(a, b, c, d, None);
  }

  lemma ExampleSelectA(a: Block, b: Block, c: Block, d: Block)
    requires ExampleShape(a, b, c, d)
    ensures Select([a, b, c, d], Some(a.id)) == [b, c]
  {
    ExampleSelect(a, b, c, d, Some(a.id));
  }

  lemma ExampleSelectB(a: Block, b: Block, c: Block, d: Block)
    requires ExampleShape(a, b, c, d)
    ensures Select([a, b, c, d], Some(b.id)) == [d]
  {
    ExampleSelect(a, b, c, d, Some(b.id));
  }

  lemma ExampleSelectLeaves(a: Block, b: Block, c: Block, d: Block)
    requires ExampleShape(a, b, c, d)
    ensures Select([a, b, c, d], Some(c.id)) == []
    ensures Select([a, b, c, d], Some(d.id)) == []
  {
    ExampleSelect(a, b, c, d, Some(c.id));
    ExampleSelect(a, b, c, d, Some(d.id));
  }

  /** One step of the map: the first selected block's node, then the rest. */
  lemma AttachOne(blocks: seq<Block>, sel: seq<Block>, parent: Option<string>, rank: map<string, nat>)
    requires Ranked(blocks, rank) && RootedIn(parent, rank)
    requires forall b :: b in sel ==> b in blocks && b.parentId == parent
    requires |sel| > 0
    ensures sel[0].id in rank
    ensures Attach(blocks, sel, parent, rank)
      == [Node(sel[0], BuildBlockTree(blocks, Some(sel[0].id), rank))] + Attach(blocks, sel[1..], parent, rank)
  {
    HeadRanked(blocks, sel, parent, rank);
  }

  /** A parent with exactly two selected children builds to their two nodes, in order. */
  lemma TwoChildren(blocks: seq<Block>, p: string, rank: map<string, nat>, u: Block, v: Block, us: seq<Node>, vs: seq<Node>)
    requires Ranked(blocks, rank) && p in rank
    requires Select(blocks, Some(p)) == [u, v]
    requires u.id in rank && BuildBlockTree(blocks, Some(u.id), rank) == us
    requires Attach(blocks, [v], Some(p), rank) == vs
    ensures BuildBlockTree(blocks, Some(p), rank) == [Node(u, us)] + vs
  {
    var sel := [u, v];
    assert sel[1..] == [v];
    AttachOne(blocks, sel, Some(p), rank);
  }

  lemma ExampleLeaves(a: Block, b: Block, c: Block, d: Block)
    requires ExampleShape(a, b, c, d)
    ensures Ranked([a, b, c, d], ExampleRank(a, b, c, d))
    ensures BuildBlockTree([a, b, c, d], Some(c.id), ExampleRank(a, b, c, d)) == []
    ensures BuildBlockTree([a, b, c, d], Some(d.id), ExampleRank(a, b, c, d)) == []
  {
    ExampleRanked(a, b, c, d);
    ExampleSelectLeaves(a, b, c, d);
  }

  lemma ExampleInner(a: Block, b: Block, c: Block, d: Block)
    requires ExampleShape(a, b, c, d)
    ensures Ranked([a, b, c, d], ExampleRank(a, b, c, d))
    ensures BuildBlockTree([a, b, c, d], Some(b.id), ExampleRank(a, b, c, d)) == [Node(d, [])]
  {
    ExampleLeaves(a, b, c, d);
    ExampleSelectB(a, b, c, d);
    AttachOne([a, b, c, d], [d], Some(b.id), ExampleRank(a, b, c, d));
  }

  lemma ExampleLastChild(a: Block, b: Block, c: Block, d: Block)
    requires ExampleShape(a, b, c, d)
    ensures Ranked([a, b, c, d], ExampleRank(a, b, c, d))
    ensures Attach([a, b, c, d], [c], Some(a.id), ExampleRank(a, b, c, d)) == [Node(c, [])]
  {
    ExampleLeaves(a, b, c, d);
    AttachOne([a, b, c, d], [c], Some(a.id), ExampleRank(a, b, c, d));
  }

  lemma ExampleUnderA(a: Block, b: Block, c: Block, d: Block)
    requires ExampleShape(a, b, c, d)
    ensures Ranked([a, b, c, d], ExampleRank(a, b, c, d))
    ensures BuildBlockTree([a, b, c, d], Some(a.id), ExampleRank(a, b, c, d)) == [Node(b, [Node(d, [])]), Node(c, [])]
  {
    ExampleSelectA(a, b, c, d);
    ExampleLastChild(a, b, c, d);
    ExampleInner(a, b, c, d);
    TwoChildren([a, b, c, d], a.id, ExampleRank(a, b, c, d), b, c, [Node(d, [])], [Node(c, [])]);
  }

  /**
   * A{B{D}, C}: siblings keep their input order and every block lands under
   * the block its parent reference names.
   */
  lemma NestedExample(a: Block, b: Block, c: Block, d: Block)
    requires ExampleShape(a, b, c, d)
    ensures Ranked([a, b, c, d], ExampleRank(a, b, c, d))
    ensures BuildBlockTree([a, b, c, d], None, ExampleRank(a, b, c, d)) == [Node(a, [Node(b, [Node(d, [])]), Node(c, [])])]
  {
    ExampleUnderA(a, b, c, d);
    ExampleSelectRoot(a, b, c, d);
    AttachOne([a, b, c, d], [a], None, ExampleRank(a, b, c, d));
  }

  /** A lone block that names a parent yields an empty forest. */
  lemma OrphanExample(x: Block)
    requires x.parentId.Some?
    ensures Ranked([x], map[])
    ensures BuildBlockTree([x], None, map[]) == []
  {
    assert LinkRanked(x, map[]);
    assert Select([x], None) == [];
  }
}

=== FILE: block_tree_count.dfy ===
/**
 * Node count of the built forest: on well-formed input (unique ids, every
 * parent reference resolving to an input block, no parent cycle) the forest
 * built from the root shows every input block exactly once.
 */
module BlockTreeCount {
  import opened Wrappers
  import opened BlockTree

  /** No two input blocks share an id. */
  ghost predicate UniqueIds(blocks: seq<Block>)
  {
    forall i, j :: 0 <= i < j < |blocks| ==> blocks[i].id != blocks[j].id
  }

  /** The ids of the input blocks. */
  ghost function Ids(blocks: seq<Block>): (ids: set<string>)
    ensures forall b :: b in blocks ==> b.id in ids
  {
    if |blocks| == 0 then {} else {blocks[0].id} + Ids(blocks[1..])
  }

  /** An id in the set belongs to some input block. */
  lemma {:induction false} IdOwner(blocks: seq<Block>, q: string) returns (y: Block)
    requires q in Ids(blocks)
    ensures y in blocks && y.id == q
  {
    if blocks[0].id == q {
      y := blocks[0];
    } else {
      y := IdOwner(blocks[1..], q);
    }
  }

  /** Every non-null parent reference names an input block. */
  ghost predicate ParentsResolve(blocks: seq<Block>)
  {
    forall b :: b in blocks && b.parentId.Some? ==> b.parentId.value in Ids(blocks)
  }

  /** `rank` ranks every input block, so no parent chain loops at all. */
  ghost predicate Acyclic(blocks: seq<Block>, rank: map<string, nat>)
  {
    Ranked(blocks, rank) && forall b :: b in blocks ==> b.id in rank
  }

  /** How often `x` is shown anywhere in the forest built below `parent`. */
  ghost function Shown(blocks: seq<Block>, parent: Option<string>, rank: map<string, nat>, x: Block): nat
    requires Ranked(blocks, rank) && RootedIn(parent, rank)
  {
    multiset(Flatten(BuildBlockTree(blocks, parent, rank)))[x]
  }

  /** How often `x` is shown anywhere in the nodes made from `sel`. */
  ghost function ShownIn(blocks: seq<Block>, sel: seq<Block>, parent: Option<string>, rank: map<string, nat>, x: Block): nat
    requires Ranked(blocks, rank) && RootedIn(parent, rank)
    requires forall b :: b in sel ==> b in blocks && b.parentId == parent
  {
    multiset(Flatten(Attach(blocks, sel, parent, rank)))[x]
  }

  /** A bound on the rank of every input block. */
  ghost function TopRank(blocks: seq<Block>, rank: map<string, nat>): (top: nat)
    requires forall b :: b in blocks ==> b.id in rank
    ensures forall b :: b in blocks ==> rank[b.id] <= top
  {
    if |blocks| == 0 then 0
    else
      var rest := TopRank(blocks[1..], rank);
      assert forall b :: b in blocks ==> b == blocks[0] || b in blocks[1..];
      if rank[blocks[0].id] > rest then rank[blocks[0].id] else rest
  }

  lemma SameIdSameBlock(blocks: seq<Block>, a: Block, b: Block)
    requires UniqueIds(blocks) && a in blocks && b in blocks && a.id == b.id
    ensures a == b
  {
    var i :| 0 <= i < |blocks| && blocks[i] == a;
    var j :| 0 <= j < |blocks| && blocks[j] == b;
    assert forall p, q :: 0 <= p < |blocks| && 0 <= q < |blocks| && p != q ==> blocks[p].id != blocks[q].id by {
      forall p, q | 0 <= p < |blocks| && 0 <= q < |blocks| && p != q
        ensures blocks[p].id != blocks[q].id
      {
        if p > q {
          assert blocks[q].id != blocks[p].id;
        }
      }
    }
  }

  lemma {:induction false} OccursOnce(blocks: seq<Block>, x: Block)
    requires UniqueIds(blocks) && x in blocks
    ensures multiset(blocks)[x] == 1
  {
    assert blocks == [blocks[0]] + blocks[1..];
    var rest := blocks[1..];
    assert UniqueIds(rest) by {
      forall i, j | 0 <= i < j < |rest| ensures rest[i].id != rest[j].id {
        assert rest[i] == blocks[i + 1] && rest[j] == blocks[j + 1];
      }
    }
    if x == blocks[0] {
      assert forall k :: 0 <= k < |rest| ==> rest[k].id != blocks[0].id by {
        forall k | 0 <= k < |rest| ensures rest[k].id != blocks[0].id {
          assert rest[k] == blocks[k + 1];
        }
      }
      assert x !in rest;
    } else {
      OccursOnce(rest, x);
    }
  }

  /** Multiset view of one step of `Attach`. */
  lemma AttachStep(blocks: seq<Block>, sel: seq<Block>, parent: Option<string>, rank: map<string, nat>)
    requires Ranked(blocks, rank) && RootedIn(parent, rank)
    requires forall b :: b in sel ==> b in blocks && b.parentId == parent
    requires |sel| > 0
    ensures LinkRanked(sel[0], rank) && sel[0].id in rank
    ensures multiset(Flatten(Attach(blocks, sel, parent, rank)))
      == multiset{sel[0]}
       + multiset(Flatten(BuildBlockTree(blocks, Some(sel[0].id), rank)))
       + multiset(Flatten(Attach(blocks, sel[1..], parent, rank)))
  {
    var s := sel[0];
    assert LinkRanked(s, rank);
    var head := Node(s, BuildBlockTree(blocks, Some(s.id), rank));
    var rest := Attach(blocks, sel[1..], parent, rank);
    assert Attach(blocks, sel, parent, rank) == [head] + rest;
    FlattenCons(head, rest);
  }

  /**
   * A block is shown once directly below `parent` when that is its parent,
   * plus once below every showing of its parent block.
   */
  lemma {:induction false} ShownUnderParent(blocks: seq<Block>, parent: Option<string>, rank: map<string, nat>, x: Block, y: Block)
    requires Ranked(blocks, rank) && RootedIn(parent, rank) && UniqueIds(blocks)
    requires x in blocks && y in blocks && x.parentId == Some(y.id)
    ensures Shown(blocks, parent, rank, x) == (if x.parentId == parent then 1 else 0) + Shown(blocks, parent, rank, y)
    decreases Tier(parent), Level(parent, rank), 1, 0
  {
    var sel := Select(blocks, parent);
    assert BuildBlockTree(blocks, parent, rank) == Attach(blocks, sel, parent, rank);
    ShownInUnderParent(blocks, sel, parent, rank, x, y);
    SelectCount(blocks, parent, x);
    OccursOnce(blocks, x);
  }

  lemma {:induction false} ShownInUnderParent(blocks: seq<Block>, sel: seq<Block>, parent: Option<string>, rank: map<string, nat>, x: Block, y: Block)
    requires Ranked(blocks, rank) && RootedIn(parent, rank) && UniqueIds(blocks)
    requires forall b :: b in sel ==> b in blocks && b.parentId == parent
    requires x in blocks && y in blocks && x.parentId == Some(y.id)
    ensures ShownIn(blocks, sel, parent, rank, x) == multiset(sel)[x] + ShownIn(blocks, sel, parent, rank, y)
    decreases Tier(parent), Level(parent, rank), 0, |sel|
  {
    if |sel| > 0 {
      var s := sel[0];
      AttachStepAt(blocks, sel, parent, rank, x);
      AttachStepAt(blocks, sel, parent, rank, y);
      ShownUnderParent(blocks, Some(s.id), rank, x, y);
      ShownInUnderParent(blocks, sel[1..], parent, rank, x, y);
      ParentIsHead(blocks, s, x, y);
      CountCons(sel, x);
    }
  }

  /** `AttachStep` read at one block. */
  lemma AttachStepAt(blocks: seq<Block>, sel: seq<Block>, parent: Option<string>, rank: map<string, nat>, z: Block)
    requires Ranked(blocks, rank) && RootedIn(parent, rank)
    requires forall b :: b in sel ==> b in blocks && b.parentId == parent
    requires |sel| > 0
    ensures sel[0].id in rank
    ensures ShownIn(blocks, sel, parent, rank, z)
      == (if sel[0] == z then 1 else 0) + Shown(blocks, Some(sel[0].id), rank, z) + ShownIn(blocks, sel[1..], parent, rank, z)
  {
    AttachStep(blocks, sel, parent, rank);
  }

  /** With unique ids, `x` hangs under `s` exactly when `s` is `x`'s parent block `y`. */
  lemma ParentIsHead(blocks: seq<Block>, s: Block, x: Block, y: Block)
    requires UniqueIds(blocks) && s in blocks && y in blocks && x.parentId == Some(y.id)
    ensures x.parentId == Some(s.id) <==> s == y
  {
    if x.parentId == Some(s.id) {
      SameIdSameBlock(blocks, s, y);
    }
  }

  /** Occurrences in a non-empty sequence: the head, then the rest. */
  lemma CountCons(sel: seq<Block>, z: Block)
    requires |sel| > 0
    ensures multiset(sel)[z] == (if sel[0] == z then 1 else 0) + multiset(sel[1..])[z]
  {
    assert sel == [sel[0]] + sel[1..];
  }

  /** The first node of a linked forest and the rest of it are linked in turn. */
  lemma LinkedSplit(f: seq<Node>, parent: Option<string>)
    requires Linked(f, parent) && |f| > 0
    ensures f[0].block.parentId == parent && Linked(f[0].children, Some(f[0].block.id))
    ensures Linked(f[1..], parent)
  {
    var rest := f[1..];
    forall i | 0 <= i < |rest| ensures rest[i].block.parentId == parent && Linked(rest[i].children, Some(rest[i].block.id)) {
      assert rest[i] == f[i + 1];
    }
  }

  /** Below a block, no top-level node is parentless. */
  lemma LinkedNoParentless(f: seq<Node>, p: string, x: Block)
    requires Linked(f, Some(p)) && x.parentId.None?
    ensures multiset(Roots(f))[x] == 0
  {
    assert x !in Roots(f);
  }

  /**
   * In a linked forest a parentless block can only sit at the top level, so
   * it is listed exactly as often as it is a top-level node.
   */
  lemma {:induction false} LinkedRootCount(f: seq<Node>, parent: Option<string>, x: Block)
    requires Linked(f, parent) && x.parentId.None?
    ensures multiset(Flatten(f))[x] == multiset(Roots(f))[x]
    decreases f
  {
    if |f| > 0 {
      var h := f[0];
      LinkedSplit(f, parent);
      LinkedRootCount(h.children, Some(h.block.id), x);
      LinkedNoParentless(h.children, h.block.id, x);
      LinkedRootCount(f[1..], parent, x);
      RootsSplit(f);
      assert Flatten(f) == [h.block] + Flatten(h.children) + Flatten(f[1..]);
    }
  }

  /** A top-level block is shown only where it is selected. */
  lemma RootShownOnlyOnTop(blocks: seq<Block>, sel: seq<Block>, parent: Option<string>, rank: map<string, nat>, x: Block)
    requires Ranked(blocks, rank) && RootedIn(parent, rank)
    requires forall b :: b in sel ==> b in blocks && b.parentId == parent
    requires x.parentId.None?
    ensures ShownIn(blocks, sel, parent, rank, x) == multiset(sel)[x]
  {
    LinkedRootCount(Attach(blocks, sel, parent, rank), parent, x);
  }

  /** Every input block is shown exactly once in the forest built from the root. */
  lemma {:induction false} ShownOnce(blocks: seq<Block>, rank: map<string, nat>, x: Block)
    requires UniqueIds(blocks) && ParentsResolve(blocks) && Acyclic(blocks, rank)
    requires x in blocks
    ensures Shown(blocks, None, rank, x) == 1
    decreases TopRank(blocks, rank) - rank[x.id]
  {
    match x.parentId
    case None =>
      var sel := Select(blocks, None);
      assert BuildBlockTree(blocks, None, rank) == Attach(blocks, sel, None, rank);
      RootShownOnlyOnTop(blocks, sel, None, rank, x);
      SelectCount(blocks, None, x);
      OccursOnce(blocks, x);
    case Some(q) =>
      var y := IdOwner(blocks, q);
      assert LinkRanked(x, rank);
      ShownUnderParent(blocks, None, rank, x, y);
      ShownOnce(blocks, rank, y);
  }

  /**
   * On well-formed input the forest built from the root holds every input
   * block exactly once, so its node count equals the input length.
   */
  lemma EveryBlockOnce(blocks: seq<Block>, rank: map<string, nat>)
    requires UniqueIds(blocks) && ParentsResolve(blocks) && Acyclic(blocks, rank)
    ensures multiset(Flatten(BuildBlockTree(blocks, None, rank))) == multiset(blocks)
    ensures |Flatten(BuildBlockTree(blocks, None, rank))| == |blocks|
  {
    var shown := Flatten(BuildBlockTree(blocks, None, rank));
    BuildMembers(blocks, None, rank);
    forall z
      ensures multiset(shown)[z] == multiset(blocks)[z]
    {
      if z in blocks {
        ShownOnce(blocks, rank, z);
        OccursOnce(blocks, z);
      }
    }
    assert multiset(shown) == multiset(blocks);
    assert |multiset(shown)| == |multiset(blocks)|;
  }
}

=== FILE: client_block_store.dfy ===
/**
 * The client-side block store of frontend/src/stores/block.ts: local edits
 * to the top-level block list of the loaded document.  The loaded document
 * is `None` when nothing has been fetched; the network call that follows a
 * local append is not part of this model.
 */
module ClientBlockStore {
  import opened Wrappers
  import opened Enums

  /** A block as the client holds it; `workspaceId` is only set on locally added blocks. */
  datatype ClientBlock = ClientBlock(
    id: string,
    blockType: BlockType,
    content: string,
    documentId: string,
    createdById: string,
    createdAt: string,
    children: seq<ClientBlock>,
    workspaceId: Option<string>)

  /** The loaded document with its top-level blocks (other metadata is carried along untouched). */
  datatype ClientDocument = ClientDocument(id: string, title: string, workspaceId: string, blocks: seq<ClientBlock>)

  /** The author id a locally added block carries until the server assigns the real one. */
  const LOCAL_AUTHOR := "1234"

  /** The store's `blocks` view: the loaded document's blocks, or an empty list. */
  function Blocks(doc: Option<ClientDocument>): (r: seq<ClientBlock>)
    ensures doc.None? ==> r == []
    ensures doc.Some? ==> r == doc.value.blocks
  {
    if doc.Some? then doc.value.blocks else []
  }

  /**
   * addBlock: with no document loaded nothing happens; otherwise exactly one
   * new block is appended after the existing ones, with no children, the
   * document's id and workspace, and the placeholder author.
   */
  function AddBlock(doc: Option<ClientDocument>, blockType: BlockType, content: string, tempId: string, now: string): (r: Option<ClientDocument>)
    ensures doc.None? ==> r.None?
    ensures doc.Some? ==>
      var d := doc.value;
      && r.Some?
      && r.value.id == d.id && r.value.title == d.title && r.value.workspaceId == d.workspaceId
      && |r.value.blocks| == |d.blocks| + 1
      && r.value.blocks[..|d.blocks|] == d.blocks
      && var nb := r.value.blocks[|d.blocks|];
      && nb.id == tempId && nb.blockType == blockType && nb.content == content && nb.createdAt == now
      && nb.children == [] && nb.documentId == d.id && nb.createdById == LOCAL_AUTHOR
      && nb.workspaceId == Some(d.workspaceId)
  {
    match doc
    case None => None
    case Some(d) =>
      var nb := ClientBlock(tempId, blockType, content, d.id, LOCAL_AUTHOR, now, [], Some(d.workspaceId));
      assert (d.blocks + [nb])[..|d.blocks|] == d.blocks;
      Some(d.(blocks := d.blocks + [nb]))
  }

  /** A partial block: each present field overwrites the block's own. */
  datatype BlockPatch = BlockPatch(
    id: Option<string>,
    blockType: Option<BlockType>,
    content: Option<string>,
    documentId: Option<string>,
    createdById: Option<string>,
    createdAt: Option<string>,
    children: Option<seq<ClientBlock>>)

  function Pick<T>(patched: Option<T>, current: T): T
  {
    if patched.Some? then patched.value else current
  }

  /** `Object.assign(block, updates)`: every field the patch names is overwritten, every other one is kept. */
  function Assign(b: ClientBlock, p: BlockPatch): (r: ClientBlock)
    ensures p.id.Some? ==> r.id == p.id.value
    ensures p.id.None? ==> r.id == b.id
    ensures p.blockType.Some? ==> r.blockType == p.blockType.value
    ensures p.blockType.None? ==> r.blockType == b.blockType
    ensures p.content.Some? ==> r.content == p.content.value
    ensures p.content.None? ==> r.content == b.content
    ensures p.documentId.Some? ==> r.documentId == p.documentId.value
    ensures p.documentId.None? ==> r.documentId == b.documentId
    ensures p.createdById.Some? ==> r.createdById == p.createdById.value
    ensures p.createdById.None? ==> r.createdById == b.createdById
    ensures p.createdAt.Some? ==> r.createdAt == p.createdAt.value
    ensures p.createdAt.None? ==> r.createdAt == b.createdAt
    ensures p.children.Some? ==> r.children == p.children.value
    ensures p.children.None? ==> r.children == b.children
    ensures r.workspaceId == b.workspaceId
    ensures p == BlockPatch(None, None, None, None, None, None, None) ==> r == b
  {
    ClientBlock(
      Pick(p.id, b.id), Pick(p.blockType, b.blockType), Pick(p.content, b.content),
      Pick(p.documentId, b.documentId), Pick(p.createdById, b.createdById),
      Pick(p.createdAt, b.createdAt), Pick(p.children, b.children), b.workspaceId)
  }

  /** Applying the same patch again changes nothing more. */
  lemma AssignTwice(b: ClientBlock, p: BlockPatch)
    ensures Assign(Assign(b, p), p) == Assign(b, p)
  {
  }

  /** `i` is the position of the first block with id `id`. */
  ghost predicate FirstMatch(blocks: seq<ClientBlock>, id: string, i: int)
  {
    0 <= i < |blocks| && blocks[i].id == id && forall j :: 0 <= j < i ==> blocks[j].id != id
  }

  /** Patch the first block with id `id`, leaving every other block as it is. */
  function PatchFirst(blocks: seq<ClientBlock>, id: string, p: BlockPatch): (r: seq<ClientBlock>)
    ensures |r| == |blocks|
    ensures forall i :: 0 <= i < |blocks| ==> r[i] == if FirstMatch(blocks, id, i) then Assign(blocks[i], p) else blocks[i]
  {
    if |blocks| == 0 then []
    else if blocks[0].id == id then [Assign(blocks[0], p)] + blocks[1..]
    else
      var rest := PatchFirst(blocks[1..], id, p);
      FirstMatchTail(blocks, id);
      [blocks[0]] + rest
  }

  /** Past a non-matching head, the first match is the first match of the tail, one place on. */
  lemma FirstMatchTail(blocks: seq<ClientBlock>, id: string)
    requires |blocks| > 0 && blocks[0].id != id
    ensures !FirstMatch(blocks, id, 0)
    ensures forall i :: 1 <= i < |blocks| ==> (FirstMatch(blocks, id, i) <==> FirstMatch(blocks[1..], id, i - 1))
  {
    forall i | 1 <= i < |blocks| ensures FirstMatch(blocks, id, i) <==> FirstMatch(blocks[1..], id, i - 1) {
      if FirstMatch(blocks[1..], id, i - 1) {
        forall j | 0 <= j < i ensures blocks[j].id != id {
          if j > 0 {
            assert blocks[j] == blocks[1..][j - 1];
          }
        }
      }
    }
  }

  /**
   * updateBlock: only the first top-level block with a matching id receives
   * the patch; nested children are not searched, and with no document
   * loaded there is nothing to update.
   */
  function UpdateBlock(doc: Option<ClientDocument>, id: string, p: BlockPatch): (r: Option<ClientDocument>)
    ensures doc.None? ==> r.None?
    ensures doc.Some? ==>
      && r.Some?
      && r.value.(blocks := []) == doc.value.(blocks := [])
      && |r.value.blocks| == |doc.value.blocks|
      && forall i :: 0 <= i < |doc.value.blocks| ==>
           r.value.blocks[i] == if FirstMatch(doc.value.blocks, id, i) then Assign(doc.value.blocks[i], p) else doc.value.blocks[i]
  {
    match doc
    case None => None
    case Some(d) => Some(d.(blocks := PatchFirst(d.blocks, id, p)))
  }

  /** An id no top-level block carries (even one only present among children) changes nothing. */
  lemma UpdateAbsentNoChange(doc: Option<ClientDocument>, id: string, p: BlockPatch)
    requires forall b :: b in Blocks(doc) ==> b.id != id
    ensures UpdateBlock(doc, id, p) == doc
  {
    if doc.Some? {
      var r := UpdateBlock(doc, id, p).value;
      assert r.blocks == doc.value.blocks;
    }
  }

  /** The top-level blocks whose id differs from `id`, in their original order. */
  function Without(blocks: seq<ClientBlock>, id: string): (r: seq<ClientBlock>)
    ensures forall b :: b in r <==> b in blocks && b.id != id
    ensures |r| <= |blocks|
  {
    if |blocks| == 0 then []
    else (if blocks[0].id != id then [blocks[0]] else []) + Without(blocks[1..], id)
  }

  /** Removal keeps input order: it distributes over concatenation. */
  lemma {:induction false} WithoutAppend(a: seq<ClientBlock>, b: seq<ClientBlock>, id: string)
    ensures Without(a + b, id) == Without(a, id) + Without(b, id)
  {
    if |a| == 0 {
      assert a + b == b;
    } else {
      assert (a + b)[0] == a[0];
      assert (a + b)[1..] == a[1..] + b;
      WithoutAppend(a[1..], b, id);
      var h := if a[0].id != id then [a[0]] else [];
      assert Without(a + b, id) == h + Without(a[1..] + b, id);
      assert h + (Without(a[1..], id) + Without(b, id)) == (h + Without(a[1..], id)) + Without(b, id);
    }
  }

  /** With no block carrying `id`, removal keeps the list as it is. */
  lemma {:induction false} WithoutAbsent(blocks: seq<ClientBlock>, id: string)
    requires forall b :: b in blocks ==> b.id != id
    ensures Without(blocks, id) == blocks
  {
    if |blocks| > 0 {
      WithoutAbsent(blocks[1..], id);
      assert blocks == [blocks[0]] + blocks[1..];
    }
  }

  /**
   * deleteBlock: with a document loaded, exactly the top-level blocks whose
   * id differs from `id` remain, in order; otherwise nothing happens.
   */
  function DeleteBlock(doc: Option<ClientDocument>, id: string): (r: Option<ClientDocument>)
    ensures doc.None? ==> r.None?
    ensures doc.Some? ==>
      && r.Some?
      && r.value.(blocks := []) == doc.value.(blocks := [])
      && (forall b :: b in r.value.blocks <==> b in doc.value.blocks && b.id != id)
  {
    match doc
    case None => None
    case Some(d) => Some(d.(blocks := Without(d.blocks, id)))
  }

  /** The `blocks` view follows a delete, and with no document both sides are the empty fallback. */
  lemma DeleteInView(doc: Option<ClientDocument>, id: string)
    ensures Blocks(DeleteBlock(doc, id)) == Without(Blocks(doc), id)
  {
  }

  /** Deleting twice is deleting once. */
  lemma DeleteIdempotent(doc: Option<ClientDocument>, id: string)
    ensures DeleteBlock(DeleteBlock(doc, id), id) == DeleteBlock(doc, id)
  {
    if doc.Some? {
      WithoutAbsent(Without(doc.value.blocks, id), id);
    }
  }

  /** Deleting a block just added under an unused id restores the document. */
  lemma AddThenDelete(doc: Option<ClientDocument>, blockType: BlockType, content: string, tempId: string, now: string)
    requires forall b :: b in Blocks(doc) ==> b.id != tempId
    ensures DeleteBlock(AddBlock(doc, blockType, content, tempId, now), tempId) == doc
  {
    if doc.Some? {
      var d := doc.value;
      var added := AddBlock(doc, blockType, content, tempId, now).value;
      assert added.blocks == d.blocks + [added.blocks[|d.blocks|]];
      WithoutAppend(d.blocks, [added.blocks[|d.blocks|]], tempId);
      WithoutAbsent(d.blocks, tempId);
      assert Without([added.blocks[|d.blocks|]], tempId) == [];
      assert Without(added.blocks, tempId) == d.blocks;
      assert added.(blocks := d.blocks) == d;
    }
  }
}

=== FILE: enums.dfy ===
/** The enumerations of src/typings/enums.ts and their wire spellings. */
module Enums {
  import opened Wrappers

  /** A member's role inside a workspace. */
  datatype Role = Owner | Editor | Viewer

  /** The kind of content a block carries. */
  datatype BlockType = Text | Heading | List | Image | Code | Embed

  /** The string the API and the database use for a role. */
  function RoleName(r: Role): string
  {
    match r
    case Owner => "owner"
    case Editor => "editor"
    case Viewer => "viewer"
  }

  /** Reads a role back from its wire spelling; any other string is rejected. */
  function ParseRole(s: string): (r: Option<Role>)
    ensures r.Some? ==> RoleName(r.value) == s
    ensures (exists x: Role :: RoleName(x) == s) ==> r.Some?
  {
    if s == "owner" then Some(Owner)
    else if s == "editor" then Some(Editor)
    else if s == "viewer" then Some(Viewer)
    else None
  }

  /** The spelling of a role is read back as the same role. */
  lemma ParseRoleName(r: Role)
    ensures ParseRole(RoleName(r)) == Some(r)
  {
  }

  /** Only owners and editors may write content (block creation). */
  predicate CanWrite(r: Role)
  {
    r == Owner || r == Editor
  }
}

=== FILE: router_guard.dfy ===
/**
 * The client route table and the global navigation guard of
 * frontend/src/router/index.ts, composed with the authentication store.
 */
module RouterGuard {
  import opened Wrappers
  import UserStore

  datatype RouteName = Home | Login | Signup

  function PathOf(n: RouteName): string
  {
    match n
    case Home => "/"
    case Login => "/login"
    case Signup => "/signup"
  }

  /** An ASCII upper-case letter becomes lower case; every other character stays. */
  function Lower(c: char): (r: char)
    ensures 'a' <= r <= 'z' <==> 'a' <= c <= 'z' || 'A' <= c <= 'Z'
    ensures !('A' <= c <= 'Z') ==> r == c
  {
    if 'A' <= c <= 'Z' then (c as int + 32) as char else c
  }

  function LowerAll(s: string): (r: string)
    ensures |r| == |s| && forall i :: 0 <= i < |s| ==> r[i] == Lower(s[i])
  {
    seq(|s|, i requires 0 <= i < |s| => Lower(s[i]))
  }

  /** The literal part of a route's pattern: its path without a final slash. */
  function Stem(n: RouteName): string
  {
    var p := PathOf(n);
    if |p| > 0 && p[|p| - 1] == '/' then p[..|p| - 1] else p
  }

  /**
   * The pattern the router compiles for a route with its default options
   * (neither case-sensitive nor strict): the literal part, compared without
   * regard to the case of ASCII letters, optionally followed by one slash.
   * The case-insensitive comparison matches no non-ASCII character against
   * an ASCII letter, which is what lower-casing ASCII letters alone gives.
   */
  predicate Matches(n: RouteName, path: string)
  {
    var p := LowerAll(path);
    p == Stem(n) || p == Stem(n) + "/"
  }

  /** The named route a path matches; an unmatched path carries no name. */
  function Resolve(path: string): (r: Option<RouteName>)
    ensures r.Some? ==> Matches(r.value, path)
    ensures (exists n :: Matches(n, path)) ==> r.Some?
  {
    if Matches(Home, path) then Some(Home)
    else if Matches(Login, path) then Some(Login)
    else if Matches(Signup, path) then Some(Signup)
    else None
  }

  /** Every route's own path resolves to it. */
  lemma ResolvePath(n: RouteName)
    ensures Resolve(PathOf(n)) == Some(n)
  {
    match n
    case Home => assert LowerAll("/") == "/";
    case Login => assert LowerAll("/login") == "/login";
    case Signup =>
      assert LowerAll("/signup") == "/signup";
      assert Stem(Login) == "/login";
      assert "/signup"[1] != "/login/"[1];
  }

  /** Case and one trailing slash do not matter: "/Login" and "/login/" both name the login page, "/login//" nothing. */
  lemma ResolveSpellings()
    ensures Resolve("/Login") == Some(Login)
    ensures Resolve("/LOGIN/") == Some(Login)
    ensures Resolve("/signup/") == Some(Signup)
    ensures Resolve("/login//") == None
    ensures Resolve("//") == None
  {
    assert LowerAll("/Login") == "/login";
    assert LowerAll("/LOGIN/") == "/login/";
    assert LowerAll("/signup/") == "/signup/";
    assert LowerAll("/login//") == "/login//";
    assert LowerAll("//") == "//";
  }

  /** The guard's verdict: a redirect target, or `None` to let the navigation through. */
  function Guard(authenticated: bool, to: Option<RouteName>): (r: Option<RouteName>)
    ensures r.Some? <==> !authenticated && to != Some(Login)
    ensures r.Some? ==> r.value == Login
  {
    if !authenticated && to != Some(Login) then Some(Login) else None
  }

  /** Where a navigation ends up once the guard has run (a redirect is itself guarded). */
  function Navigate(authenticated: bool, to: Option<RouteName>): (r: Option<RouteName>)
    ensures Guard(authenticated, r).None?
  {
    var g := Guard(authenticated, to);
    if g.Some? then g else to
  }

  /** A redirect is never redirected again, so the guard cannot loop. */
  lemma NoRedirectLoop(authenticated: bool, to: Option<RouteName>)
    ensures var g := Guard(authenticated, to); g.Some? ==> Guard(authenticated, g).None?
  {
  }

  /** Signed out, every path (the sign-up page included) lands on the login page; signed in, every path is honoured. */
  lemma NavigationOutcome(storage: map<string, string>, path: string)
    ensures var auth := UserStore.IsAuthenticated(UserStore.Init(storage));
      && (!auth ==> Navigate(auth, Resolve(path)) == Some(Login))
      && (auth ==> Navigate(auth, Resolve(path)) == Resolve(path))
  {
  }

  /** After logging out, the sign-up page cannot be reached, even across a reload. */
  lemma SignupUnreachableAfterLogout(s: UserStore.Session)
    ensures Navigate(UserStore.IsAuthenticated(UserStore.Init(UserStore.Logout(s).storage)), Resolve("/signup")) == Some(Login)
  {
  }
}

=== FILE: time_ago.dfy ===
/**
 * The relative-time label of frontend/src/lib/utils.ts (`timeAgo`).  The
 * clock read and the date parsing are outside the model: the caller passes
 * the elapsed whole seconds, or `None` when the date string does not parse
 * (the source then compares NaN, every threshold test fails, and the full
 * date is shown).
 */
module TimeAgo {
  import opened Wrappers

  const MINUTE := 60
  const HOUR := 3600
  const DAY := 86400
  const WEEK := 604800

  /** The label chosen, with its whole-unit count; the full-date text itself is not modelled. */
  datatype TimeLabel = JustNow | MinutesAgo(minutes: int) | HoursAgo(hours: int) | DaysAgo(days: int) | FullDate

  /** Elapsed seconds are floored from milliseconds, as `Math.floor(ms / 1000)` does for either sign. */
  function ElapsedSeconds(millis: int): (s: int)
    ensures s * 1000 <= millis < (s + 1) * 1000
  {
    millis / 1000
  }

  function Label(diff: Option<int>): (r: TimeLabel)
    ensures diff.None? ==> r == FullDate
    ensures diff.Some? ==>
      var d := diff.value;
      && (r == JustNow <==> d < MINUTE)
      && (r.MinutesAgo? <==> MINUTE <= d < HOUR)
      && (r.HoursAgo? <==> HOUR <= d < DAY)
      && (r.DaysAgo? <==> DAY <= d < WEEK)
      && (r == FullDate <==> WEEK <= d)
      && (r.MinutesAgo? ==> 1 <= r.minutes <= 59 && r.minutes * MINUTE <= d < (r.minutes + 1) * MINUTE)
      && (r.HoursAgo? ==> 1 <= r.hours <= 23 && r.hours * HOUR <= d < (r.hours + 1) * HOUR)
      && (r.DaysAgo? ==> 1 <= r.days <= 6 && r.days * DAY <= d < (r.days + 1) * DAY)
  {
    match diff
    case None => FullDate
    case Some(d) =>
      if d < MINUTE then JustNow
      else if d < HOUR then MinutesAgo(d / MINUTE)
      else if d < DAY then HoursAgo(d / HOUR)
      else if d < WEEK then DaysAgo(d / DAY)
      else FullDate
  }

  /** How coarse a label is: finer labels describe more recent moments. */
  function Coarseness(l: TimeLabel): nat
  {
    match l
    case JustNow => 0
    case MinutesAgo(_) => 1
    case HoursAgo(_) => 2
    case DaysAgo(_) => 3
    case FullDate => 4
  }

  /** The count a label shows, zero for the labels without one. */
  function Count(l: TimeLabel): int
  {
    match l
    case MinutesAgo(n) => n
    case HoursAgo(n) => n
    case DaysAgo(n) => n
    case _ => 0
  }

  /**
   * An older moment never gets a finer label, and within one unit never a
   * smaller count.
   */
  lemma LabelMonotone(d1: int, d2: int)
    requires d1 <= d2
    ensures Coarseness(Label(Some(d1))) <= Coarseness(Label(Some(d2)))
    ensures Coarseness(Label(Some(d1))) == Coarseness(Label(Some(d2))) ==> Count(Label(Some(d1))) <= Count(Label(Some(d2)))
  {
    var l1, l2 := Label(Some(d1)), Label(Some(d2));
    if l1.MinutesAgo? && l2.MinutesAgo? {
      assert l1.minutes * MINUTE <= d2 < (l2.minutes + 1) * MINUTE;
    } else if l1.HoursAgo? && l2.HoursAgo? {
      assert l1.hours * HOUR <= d2 < (l2.hours + 1) * HOUR;
    } else if l1.DaysAgo? && l2.DaysAgo? {
      assert l1.days * DAY <= d2 < (l2.days + 1) * DAY;
    }
  }

  /** A date in the future (negative elapsed time) reads as "just now". */
  lemma FutureIsJustNow(d: int)
    requires d < 0
    ensures Label(Some(d)) == JustNow
  {
  }

  /** Two moments in the same minute of the first hour get the same label. */
  lemma SameMinuteSameLabel(d1: int, d2: int, n: int)
    requires 1 <= n < 60
    requires n * MINUTE <= d1 < (n + 1) * MINUTE && n * MINUTE <= d2 < (n + 1) * MINUTE
    ensures Label(Some(d1)) == Label(Some(d2)) == MinutesAgo(n)
  {
    var l1, l2 := Label(Some(d1)), Label(Some(d2));
    assert l1.minutes * MINUTE <= d1 < (l1.minutes + 1) * MINUTE;
    assert l2.minutes * MINUTE <= d2 < (l2.minutes + 1) * MINUTE;
  }
}

=== FILE: user_store.dfy ===
/**
 * The authentication store of frontend/src/stores/user.ts.  Browser local
 * storage is modelled as a string map passed in and returned; the store's
 * in-memory token is `UserState`.
 */
module UserStore {
  /** The local-storage key under which the token persists. */
  const TOKEN_KEY := "jwt"

  datatype UserState = UserState(token: string)

  /** In-memory state and local storage together. */
  datatype Session = Session(state: UserState, storage: map<string, string>)

  /** A freshly created store reads the persisted token, or the empty token when none is stored. */
  function Init(storage: map<string, string>): (r: UserState)
    ensures TOKEN_KEY in storage ==> r.token == storage[TOKEN_KEY]
    ensures TOKEN_KEY !in storage ==> r.token == ""
  {
    if TOKEN_KEY in storage && storage[TOKEN_KEY] != "" then UserState(storage[TOKEN_KEY]) else UserState("")
  }

  /** The `isAuthenticated` getter: `!!token` is true exactly for a non-empty token. */
  function IsAuthenticated(st: UserState): (r: bool)
    ensures r <==> |st.token| >= 1
  {
    st.token != ""
  }

  /** The in-memory state is what a reload from storage would produce. */
  predicate Synced(s: Session)
  {
    Init(s.storage) == s.state
  }

  function Start(storage: map<string, string>): (r: Session)
    ensures Synced(r) && r.storage == storage
  {
    Session(Init(storage), storage)
  }

  function SetToken(s: Session, token: string): (r: Session)
    ensures r.state.token == token
    ensures IsAuthenticated(r.state) <==> token != ""
    ensures TOKEN_KEY in r.storage && r.storage[TOKEN_KEY] == token
    ensures forall k :: k != TOKEN_KEY ==> (k in r.storage <==> k in s.storage) && (k in s.storage ==> r.storage[k] == s.storage[k])
  {
    Session(UserState(token), s.storage[TOKEN_KEY := token])
  }

  function Logout(s: Session): (r: Session)
    ensures !IsAuthenticated(r.state)
    ensures TOKEN_KEY !in r.storage
    ensures forall k :: k != TOKEN_KEY ==> (k in r.storage <==> k in s.storage) && (k in s.storage ==> r.storage[k] == s.storage[k])
  {
    Session(UserState(""), s.storage - {TOKEN_KEY})
  }

  /** Both actions keep memory and storage in step, so a page reload restores the same state. */
  lemma ActionsKeepSynced(s: Session, token: string)
    ensures Synced(SetToken(s, token))
    ensures Synced(Logout(s))
  {
  }

  /** After logging out, a reload starts unauthenticated. */
  lemma LogoutSurvivesReload(s: Session)
    ensures !IsAuthenticated(Init(Logout(s).storage))
  {
  }

  /** Logging in after logging out is the same as logging in. */
  lemma LogoutThenSetToken(s: Session, token: string)
    ensures SetToken(Logout(s), token) == SetToken(s, token)
  {
    assert SetToken(Logout(s), token).storage == SetToken(s, token).storage;
  }
}

=== FILE: workspace_controller.dfy ===
/**
 * The workspace operations of src/controllers/workspace.controller.ts as
 * transitions on an in-memory store: a table of workspaces and a membership
 * table keyed by (user, workspace).  Keying the membership table by the pair
 * encodes the store's compound unique key; every operation returns the next
 * store together with the HTTP response it sends.
 */
module WorkspaceController {
  import opened Wrappers
  import opened Enums
  import opened WorkspaceDto

  datatype Workspace = Workspace(name: string)

  /** The compound key `userId_workspaceId` of a membership. */
  datatype MemberKey = MemberKey(userId: string, workspaceId: string)

  datatype Db = Db(workspaces: map<string, Workspace>, members: map<MemberKey, Role>)

  /** The JSON payload of a response. */
  datatype Body =
    | WorkspaceWithMembers(id: string, workspace: Workspace, members: map<MemberKey, Role>)
    | Member(key: MemberKey, role: Role)
    | WorkspaceRecord(id: string, workspace: Workspace)
    | Message(text: string)
    | Error(text: string)
    | ValidationError(issues: set<string>)

  /** A sent reply, or a validation error that escapes the controller uncaught. */
  datatype Response = Reply(status: nat, body: Body) | Escaped(issues: set<string>)

  datatype Step = Step(db: Db, response: Response)

  const NOT_FOUND_MESSAGE := "Workspace not found"
  const ALREADY_MEMBER_MESSAGE := "User already a member of this workspace"
  const NOT_MEMBER_MESSAGE := "User not a member of this workspace"
  const IS_OWNER_MESSAGE := "User is owner of the workspace"
  const ID_MISMATCH_MESSAGE := "workspace id not matching"

  /** The role `u` holds in workspace `w`, if any. */
  function RoleOf(db: Db, u: string, w: string): Option<Role>
  {
    var k := MemberKey(u, w);
    if k in db.members then Some(db.members[k]) else None
  }

  /** The users holding the owner role in workspace `w`. */
  ghost function OwnersOf(db: Db, w: string): set<string>
  {
    set k | k in db.members && k.workspaceId == w && db.members[k] == Owner :: k.userId
  }

  /** A store-generated workspace id: unused by any workspace or membership. */
  predicate FreshWorkspaceId(db: Db, id: string)
  {
    id !in db.workspaces && forall k :: k in db.members ==> k.workspaceId != id
  }

  /** The answer to a payload the schema rejects (the controller's error handler). */
  function Invalid(issues: set<string>): Response
  {
    Reply(400, ValidationError(issues))
  }

  /**
   * createWorkspace: a valid payload creates the workspace together with
   * exactly one membership, its creator as owner; nothing else changes.
   */
  function CreateWorkspace(db: Db, body: CreateWorkspaceBody, freshId: string): (r: Step)
    requires FreshWorkspaceId(db, freshId)
    ensures r.response.Reply? && (r.response.status == 201 <==> ValidateCreateWorkspace(body).Success?)
    ensures ValidateCreateWorkspace(body).Failure? ==>
      r == Step(db, Invalid(ValidateCreateWorkspace(body).error))
    ensures ValidateCreateWorkspace(body).Success? ==>
      var dto := ValidateCreateWorkspace(body).value;
      && r.db.workspaces == db.workspaces[freshId := Workspace(dto.name)]
      && (forall u :: RoleOf(r.db, u, freshId) == if u == dto.userId then Some(Owner) else None)
      && (forall u, w :: w != freshId ==> RoleOf(r.db, u, w) == RoleOf(db, u, w))
  {
    match ValidateCreateWorkspace(body)
    case Failure(issues) => Step(db, Invalid(issues))
    case Success(dto) =>
      var key := MemberKey(dto.userId, freshId);
      var db' := Db(db.workspaces[freshId := Workspace(dto.name)], db.members[key := Owner]);
      Step(db', Reply(201, WorkspaceWithMembers(freshId, Workspace(dto.name), map[key := Owner])))
  }

  /**
   * The guards of addMember after validation, then the insertion: a missing
   * workspace is answered 404 and an existing membership 409, both leaving
   * the store as it was; otherwise exactly the requested membership is added.
   */
  function AddValidated(db: Db, dto: InviteDto): (r: Step)
    ensures r.response.Reply?
    ensures dto.workspaceId !in db.workspaces ==> r == Step(db, Reply(404, Error(NOT_FOUND_MESSAGE)))
    ensures dto.workspaceId in db.workspaces && RoleOf(db, dto.userId, dto.workspaceId).Some? ==>
      r == Step(db, Reply(409, Error(ALREADY_MEMBER_MESSAGE)))
    ensures dto.workspaceId in db.workspaces && RoleOf(db, dto.userId, dto.workspaceId).None? ==>
      && r.response.status == 201
      && r.db.workspaces == db.workspaces
      && RoleOf(r.db, dto.userId, dto.workspaceId) == Some(dto.role)
      && (forall u, w :: (u, w) != (dto.userId, dto.workspaceId) ==> RoleOf(r.db, u, w) == RoleOf(db, u, w))
  {
    var key := MemberKey(dto.userId, dto.workspaceId);
    if dto.workspaceId !in db.workspaces then Step(db, Reply(404, Error(NOT_FOUND_MESSAGE)))
    else if key in db.members then Step(db, Reply(409, Error(ALREADY_MEMBER_MESSAGE)))
    else Step(Db(db.workspaces, db.members[key := dto.role]), Reply(201, Member(key, dto.role)))
  }

  /** Every check addMember makes passes: valid input, matching ids, existing workspace, no membership yet. */
  predicate AddAccepted(db: Db, id: Option<string>, body: InviteBody)
  {
    && ValidateWorkspaceId(id).Success?
    && ValidateInvite(body).Success?
    && var dto := ValidateInvite(body).value;
    && id.value == dto.workspaceId
    && dto.workspaceId in db.workspaces
    && RoleOf(db, dto.userId, dto.workspaceId).None?
  }

  /**
   * addMember, returning after the id-mismatch reply: the guards run in order
   * (invalid input 400, mismatching ids 400, missing workspace 404, existing
   * membership 409); only when all pass is exactly one membership inserted.
   */
  function AddMember(db: Db, id: Option<string>, body: InviteBody): (r: Step)
    ensures r.response.Reply?
    ensures r.response.status == 201 <==> AddAccepted(db, id, body)
    ensures r.response.status != 201 ==> r.db == db
    ensures AddAccepted(db, id, body) ==>
      var dto := ValidateInvite(body).value;
      && r.db.workspaces == db.workspaces
      && RoleOf(r.db, dto.userId, dto.workspaceId) == Some(dto.role)
      && (forall u, w :: (u, w) != (dto.userId, dto.workspaceId) ==> RoleOf(r.db, u, w) == RoleOf(db, u, w))
    ensures ValidateWorkspaceId(id).Failure? ==> r.response == Invalid(ValidateWorkspaceId(id).error)
    ensures ValidateWorkspaceId(id).Success? && ValidateInvite(body).Failure? ==>
      r.response == Invalid(ValidateInvite(body).error)
    ensures ValidateWorkspaceId(id).Success? && ValidateInvite(body).Success? ==>
      var dto := ValidateInvite(body).value;
      && (id.value != dto.workspaceId ==> r.response == Reply(400, Error(ID_MISMATCH_MESSAGE)))
      && (id.value == dto.workspaceId && dto.workspaceId !in db.workspaces ==> r.response.status == 404)
      && ((id.value == dto.workspaceId && dto.workspaceId in db.workspaces && RoleOf(db, dto.userId, dto.workspaceId).Some?)
            ==> r.response.status == 409)
  {
    match ValidateWorkspaceId(id)
    case Failure(issues) => Step(db, Invalid(issues))
    case Success(pathId) =>
      match ValidateInvite(body)
      case Failure(issues) => Step(db, Invalid(issues))
      case Success(dto) =>
        if pathId != dto.workspaceId then Step(db, Reply(400, Error(ID_MISMATCH_MESSAGE)))
        else AddValidated(db, dto)
  }

  /**
   * addMember as the source has it: the id-mismatch reply is sent but the
   * handler does not return, so the later guards and the insertion still run.
   * The client sees the first reply; the store keeps whatever the rest did.
   */
  function AddMemberAsWritten(db: Db, id: Option<string>, body: InviteBody): (r: Step)
    ensures r.response.Reply?
    ensures r.response == AddMember(db, id, body).response
    ensures ValidateWorkspaceId(id).Failure? || ValidateInvite(body).Failure? ==> r.db == db
    ensures ValidateWorkspaceId(id).Success? && ValidateInvite(body).Success? ==>
      r.db == AddValidated(db, ValidateInvite(body).value).db
  {
    match ValidateWorkspaceId(id)
    case Failure(issues) => Step(db, Invalid(issues))
    case Success(pathId) =>
      match ValidateInvite(body)
      case Failure(issues) => Step(db, Invalid(issues))
      case Success(dto) =>
        var rest := AddValidated(db, dto);
        if pathId != dto.workspaceId then Step(rest.db, Reply(400, Error(ID_MISMATCH_MESSAGE)))
        else rest
  }

  /** The as-written handler answers 400 for mismatching ids and still inserts the membership. */
  lemma MismatchStillInserts()
    ensures var db := Db(map["w1" := Workspace("team")], map[]);
      var r := AddMemberAsWritten(db, Some("w2"), InviteBody(Str("w1"), Str("u1"), Str("editor")));
      && r.response == Reply(400, Error(ID_MISMATCH_MESSAGE))
      && RoleOf(r.db, "u1", "w1") == Some(Editor)
      && r.db != db
  {
    var db := Db(map["w1" := Workspace("team")], map[]);
    var body := InviteBody(Str("w1"), Str("u1"), Str("editor"));
    assert ValidateInvite(body) == Success(InviteDto("w1", "u1", Editor));
  }

  /**
   * For every valid request whose ids do not match, the as-written handler
   * answers the mismatch 400 and yet, when the body's workspace exists and
   * the user is not yet a member of it, inserts that membership.
   */
  lemma MismatchInserts(db: Db, id: Option<string>, body: InviteBody)
    requires ValidateWorkspaceId(id).Success? && ValidateInvite(body).Success?
    requires var dto := ValidateInvite(body).value;
      id.value != dto.workspaceId && dto.workspaceId in db.workspaces && RoleOf(db, dto.userId, dto.workspaceId).None?
    ensures var dto := ValidateInvite(body).value;
      var r := AddMemberAsWritten(db, id, body);
      && r.response == Reply(400, Error(ID_MISMATCH_MESSAGE))
      && RoleOf(r.db, dto.userId, dto.workspaceId) == Some(dto.role)
      && r.db != db
  {
  }

  /** The corrected handler leaves the store untouched when the ids do not match. */
  lemma MismatchLeavesStore(db: Db, id: Option<string>, body: InviteBody)
    requires ValidateWorkspaceId(id).Success? && ValidateInvite(body).Success?
    requires id.value != ValidateInvite(body).value.workspaceId
    ensures AddMember(db, id, body) == Step(db, Reply(400, Error(ID_MISMATCH_MESSAGE)))
  {
  }

  /**
   * editMemberRole: invalid input 400, missing workspace 404, non-member 409,
   * owner 409 with the role unchanged; otherwise only that member's role
   * becomes the requested (never owner) role.
   */
  function EditMemberRole(db: Db, body: InviteBody): (r: Step)
    ensures r.response.Reply? && r.db.workspaces == db.workspaces
    ensures ValidateUpdateMemberRole(body).Failure? ==> r == Step(db, Invalid(ValidateUpdateMemberRole(body).error))
    ensures ValidateUpdateMemberRole(body).Success? ==>
      var dto := ValidateUpdateMemberRole(body).value;
      var before := RoleOf(db, dto.userId, dto.workspaceId);
      && (dto.workspaceId !in db.workspaces ==> r == Step(db, Reply(404, Error(NOT_FOUND_MESSAGE))))
      && (dto.workspaceId in db.workspaces && before.None? ==> r == Step(db, Reply(409, Error(NOT_MEMBER_MESSAGE))))
      && (dto.workspaceId in db.workspaces && before == Some(Owner) ==> r == Step(db, Reply(409, Error(IS_OWNER_MESSAGE))))
      && (dto.workspaceId in db.workspaces && before.Some? && before != Some(Owner) ==>
            && r.response.status == 200
            && RoleOf(r.db, dto.userId, dto.workspaceId) == Some(dto.role)
            && forall u, w :: (u, w) != (dto.userId, dto.workspaceId) ==> RoleOf(r.db, u, w) == RoleOf(db, u, w))
  {
    match ValidateUpdateMemberRole(body)
    case Failure(issues) => Step(db, Invalid(issues))
    case Success(dto) =>
      var key := MemberKey(dto.userId, dto.workspaceId);
      if dto.workspaceId !in db.workspaces then Step(db, Reply(404, Error(NOT_FOUND_MESSAGE)))
      else if key !in db.members then Step(db, Reply(409, Error(NOT_MEMBER_MESSAGE)))
      else if db.members[key] == Owner then Step(db, Reply(409, Error(IS_OWNER_MESSAGE)))
      else Step(Db(db.workspaces, db.members[key := dto.role]), Reply(200, Message("Member role updated")))
  }

  /**
   * removeMember: invalid route parameters escape uncaught, missing workspace
   * 404, non-member 409, owner 409; otherwise exactly that membership goes.
   */
  function RemoveMember(db: Db, params: RemoveMemberParams): (r: Step)
    ensures r.db.workspaces == db.workspaces
    ensures ValidateRemoveMember(params).Failure? ==> r == Step(db, Escaped(ValidateRemoveMember(params).error))
    ensures ValidateRemoveMember(params).Success? ==>
      var dto := ValidateRemoveMember(params).value;
      var before := RoleOf(db, dto.userId, dto.workspaceId);
      && (dto.workspaceId !in db.workspaces ==> r == Step(db, Reply(404, Error(NOT_FOUND_MESSAGE))))
      && (dto.workspaceId in db.workspaces && before.None? ==> r == Step(db, Reply(409, Error(NOT_MEMBER_MESSAGE))))
      && (dto.workspaceId in db.workspaces && before == Some(Owner) ==> r == Step(db, Reply(409, Error(IS_OWNER_MESSAGE))))
      && (dto.workspaceId in db.workspaces && before.Some? && before != Some(Owner) ==>
            && r.response == Reply(200, Message("Member removed from workspace"))
            && RoleOf(r.db, dto.userId, dto.workspaceId).None?
            && forall u, w :: (u, w) != (dto.userId, dto.workspaceId) ==> RoleOf(r.db, u, w) == RoleOf(db, u, w))
  {
    match ValidateRemoveMember(params)
    case Failure(issues) => Step(db, Escaped(issues))
    case Success(dto) =>
      var key := MemberKey(dto.userId, dto.workspaceId);
      if dto.workspaceId !in db.workspaces then Step(db, Reply(404, Error(NOT_FOUND_MESSAGE)))
      else if key !in db.members then Step(db, Reply(409, Error(NOT_MEMBER_MESSAGE)))
      else if db.members[key] == Owner then Step(db, Reply(409, Error(IS_OWNER_MESSAGE)))
      else Step(Db(db.workspaces, db.members - {key}), Reply(200, Message("Member removed from workspace")))
  }

  /**
   * updateWorkspaceById: invalid input 400, missing workspace 404; otherwise
   * a present `name` replaces the stored one, and the reply carries the
   * record as it was read before the update.
   */
  function UpdateWorkspace(db: Db, id: Option<string>, body: UpdateWorkspaceBody): (r: Step)
    ensures r.response.Reply? && r.db.members == db.members
    ensures r.db.workspaces.Keys == db.workspaces.Keys
    ensures ValidateWorkspaceId(id).Failure? ==> r == Step(db, Invalid(ValidateWorkspaceId(id).error))
    ensures ValidateWorkspaceId(id).Success? && ValidateUpdateWorkspace(body).Failure? ==>
      r == Step(db, Invalid(ValidateUpdateWorkspace(body).error))
    ensures ValidateWorkspaceId(id).Success? && ValidateUpdateWorkspace(body).Success? ==>
      var w := id.value;
      && (w !in db.workspaces ==> r == Step(db, Reply(404, Error(NOT_FOUND_MESSAGE))))
      && (w in db.workspaces ==>
            && r.response == Reply(200, WorkspaceRecord(w, db.workspaces[w]))
            && r.db.workspaces[w].name == (if body.name.Str? then body.name.text else db.workspaces[w].name)
            && forall v :: v in db.workspaces && v != w ==> r.db.workspaces[v] == db.workspaces[v])
  {
    match ValidateWorkspaceId(id)
    case Failure(issues) => Step(db, Invalid(issues))
    case Success(w) =>
      match ValidateUpdateWorkspace(body)
      case Failure(issues) => Step(db, Invalid(issues))
      case Success(dto) =>
        if w !in db.workspaces then Step(db, Reply(404, Error(NOT_FOUND_MESSAGE)))
        else
          var read := db.workspaces[w];
          var updated := if dto.name.Some? then Workspace(dto.name.value) else read;
          Step(Db(db.workspaces[w := updated], db.members), Reply(200, WorkspaceRecord(w, read)))
  }
}

=== FILE: workspace_dto.dfy ===
/**
 * The request schemas of src/dtos/workspace.dto.ts as validators on raw
 * payloads.  Each validator either yields the typed payload or fails with
 * the set of offending keys, as the schema library reports every failing
 * field at once.
 */
module WorkspaceDto {
  import opened Wrappers
  import opened Enums

  /**
   * The raw value a JSON request body holds under one key: absent, `null`,
   * a string, or any other JSON value (a number, boolean, array or object).
   */
  datatype Field = Absent | Null | Str(text: string) | NonString

  /** A route parameter is either missing or a string. */
  function Param(p: Option<string>): (f: Field)
    ensures f.Absent? <==> p.None?
    ensures p.Some? ==> f == Str(p.value)
  {
    if p.Some? then Str(p.value) else Absent
  }

  /** A required string field: a string at least one character long. */
  predicate Filled(v: Field)
  {
    v.Str? && |v.text| >= 1
  }

  /** The issue a required field raises: its key unless it is a non-empty string. */
  function Issue(key: string, v: Field): set<string>
  {
    if Filled(v) then {} else {key}
  }

  datatype CreateWorkspaceBody = CreateWorkspaceBody(name: Field, userId: Field)
  datatype CreateWorkspaceDto = CreateWorkspaceDto(name: string, userId: string)

  /** validateCreateWorkspace: a non-empty `name` and a non-empty `userId`. */
  function ValidateCreateWorkspace(b: CreateWorkspaceBody): (r: Result<CreateWorkspaceDto, set<string>>)
    ensures r.Success? <==> Filled(b.name) && Filled(b.userId)
    ensures r.Success? ==> r.value.name == b.name.text && r.value.userId == b.userId.text
    ensures r.Success? ==> |r.value.name| >= 1 && |r.value.userId| >= 1
    ensures r.Failure? ==> ("name" in r.error <==> !Filled(b.name)) && ("userId" in r.error <==> !Filled(b.userId))
  {
    if Filled(b.name) && Filled(b.userId) then Success(CreateWorkspaceDto(b.name.text, b.userId.text))
    else Failure(Issue("name", b.name) + Issue("userId", b.userId))
  }

  datatype UpdateWorkspaceBody = UpdateWorkspaceBody(name: Field)
  datatype UpdateWorkspaceDto = UpdateWorkspaceDto(name: Option<string>)

  /**
   * validateUpdateWorkspace: `name` may be absent, but when the key is there
   * it must hold a non-empty string; `null` and non-string values are refused.
   */
  function ValidateUpdateWorkspace(b: UpdateWorkspaceBody): (r: Result<UpdateWorkspaceDto, set<string>>)
    ensures r.Success? <==> b.name.Absent? || Filled(b.name)
    ensures r.Success? ==> r.value.name == (if b.name.Str? then Some(b.name.text) else None)
    ensures r.Failure? ==> r.error == {"name"}
  {
    match b.name
    case Absent => Success(UpdateWorkspaceDto(None))
    case Str(text) => if |text| >= 1 then Success(UpdateWorkspaceDto(Some(text))) else Failure({"name"})
    case _ => Failure({"name"})
  }

  /** validateWorkspaceId: the `id` route parameter is non-empty. */
  function ValidateWorkspaceId(id: Option<string>): (r: Result<string, set<string>>)
    ensures r.Success? <==> Filled(Param(id))
    ensures r.Success? ==> r.value == id.value && |r.value| >= 1
    ensures r.Failure? ==> r.error == {"id"}
  {
    if Filled(Param(id)) then Success(id.value) else Failure({"id"})
  }

  /** The invite role enumeration admits exactly the strings "editor" and "viewer". */
  function ParseInviteRole(s: Field): (r: Option<Role>)
    ensures r.Some? ==> r.value != Owner
    ensures forall x: Role :: r == Some(x) <==> s == Str(RoleName(x)) && x != Owner
  {
    match s
    case Str(text) =>
      var role := ParseRole(text);
      if role.Some? && role.value != Owner then role else None
    case _ => None
  }

  datatype InviteBody = InviteBody(workspaceId: Field, userId: Field, role: Field)
  datatype InviteDto = InviteDto(workspaceId: string, userId: string, role: Role)

  /** validateInvitePayload: non-empty ids and a role of "editor" or "viewer"; "owner" is refused. */
  function ValidateInvite(b: InviteBody): (r: Result<InviteDto, set<string>>)
    ensures r.Success? <==> Filled(b.workspaceId) && Filled(b.userId) && ParseInviteRole(b.role).Some?
    ensures r.Success? ==> r.value.workspaceId == b.workspaceId.text && r.value.userId == b.userId.text
    ensures r.Success? ==> r.value.role != Owner && b.role == Str(RoleName(r.value.role))
    ensures r.Failure? ==> ("role" in r.error <==> ParseInviteRole(b.role).None?)
  {
    var role := ParseInviteRole(b.role);
    if Filled(b.workspaceId) && Filled(b.userId) && role.Some? then
      Success(InviteDto(b.workspaceId.text, b.userId.text, role.value))
    else
      Failure(Issue("workspaceId", b.workspaceId) + Issue("userId", b.userId)
              + (if role.Some? then {} else {"role"}))
  }

  /** validateUpdateMemberRolePayload reuses the invite schema, so a role edit never grants "owner". */
  function ValidateUpdateMemberRole(b: InviteBody): (r: Result<InviteDto, set<string>>)
    ensures r == ValidateInvite(b)
    ensures r.Success? ==> r.value.role == Editor || r.value.role == Viewer
  {
    ValidateInvite(b)
  }

  /** removeMember hands the route parameters `id` and `userId` to the schema. */
  datatype RemoveMemberParams = RemoveMemberParams(workspaceId: Option<string>, userId: Option<string>)
  datatype RemoveMemberDto = RemoveMemberDto(workspaceId: string, userId: string)

  /** validateRemoveWorkspaceMemberPayload: both ids non-empty. */
  function ValidateRemoveMember(p: RemoveMemberParams): (r: Result<RemoveMemberDto, set<string>>)
    ensures r.Success? <==> Filled(Param(p.workspaceId)) && Filled(Param(p.userId))
    ensures r.Success? ==> r.value == RemoveMemberDto(p.workspaceId.value, p.userId.value)
    ensures r.Failure? ==> ("workspaceId" in r.error <==> !Filled(Param(p.workspaceId))) && ("userId" in r.error <==> !Filled(Param(p.userId)))
  {
    var w := Param(p.workspaceId);
    var u := Param(p.userId);
    if Filled(w) && Filled(u) then Success(RemoveMemberDto(p.workspaceId.value, p.userId.value))
    else Failure(Issue("workspaceId", w) + Issue("userId", u))
  }
}

=== FILE: workspace_invariants.dfy ===
/**
 * The ownership guarantee the workspace operations keep together: the
 * creator is made the sole owner, invitations and role edits cannot grant
 * "owner", and owners can be neither demoted nor removed.  So the owners of
 * a workspace never change after creation, and every workspace keeps
 * exactly one owner.
 */
module WorkspaceInvariants {
  import opened Wrappers
  import opened Enums
  import opened WorkspaceDto
  import opened WorkspaceController

  /** Both stores agree on who owns what. */
  ghost predicate SameOwners(a: Db, b: Db)
  {
    forall u, w :: RoleOf(a, u, w) == Some(Owner) <==> RoleOf(b, u, w) == Some(Owner)
  }

  /** Memberships name existing workspaces, and each workspace has exactly one owner. */
  ghost predicate Valid(db: Db)
  {
    && (forall k :: k in db.members ==> k.workspaceId in db.workspaces)
    && (forall w :: w in db.workspaces ==> |OwnersOf(db, w)| == 1)
  }

  lemma OwnersFromRoles(db: Db, w: string)
    ensures forall u :: u in OwnersOf(db, w) <==> RoleOf(db, u, w) == Some(Owner)
  {
    forall u ensures u in OwnersOf(db, w) <==> RoleOf(db, u, w) == Some(Owner) {
      if RoleOf(db, u, w) == Some(Owner) {
        assert MemberKey(u, w) in db.members;
      }
    }
  }

  /** Agreeing on owners means the same owner set in every workspace. */
  lemma SameOwnerSets(a: Db, b: Db)
    requires SameOwners(a, b)
    ensures forall w :: OwnersOf(a, w) == OwnersOf(b, w)
  {
    forall w ensures OwnersOf(a, w) == OwnersOf(b, w) {
      OwnersFromRoles(a, w);
      OwnersFromRoles(b, w);
    }
  }

  /** A new workspace's owner set is exactly its creator. */
  lemma CreateOwners(db: Db, body: CreateWorkspaceBody, freshId: string)
    requires FreshWorkspaceId(db, freshId) && ValidateCreateWorkspace(body).Success?
    ensures OwnersOf(CreateWorkspace(db, body, freshId).db, freshId) == {ValidateCreateWorkspace(body).value.userId}
    ensures forall w :: w != freshId ==> OwnersOf(CreateWorkspace(db, body, freshId).db, w) == OwnersOf(db, w)
  {
    var r := CreateWorkspace(db, body, freshId).db;
    OwnersFromRoles(r, freshId);
    forall w | w != freshId ensures OwnersOf(r, w) == OwnersOf(db, w) {
      OwnersFromRoles(r, w);
      OwnersFromRoles(db, w);
    }
  }

  lemma AddMemberKeepsOwners(db: Db, id: Option<string>, body: InviteBody)
    ensures SameOwners(db, AddMember(db, id, body).db)
  {
  }

  /** Even the as-written addMember, which inserts after a 400, never adds an owner. */
  lemma AddMemberAsWrittenKeepsOwners(db: Db, id: Option<string>, body: InviteBody)
    ensures SameOwners(db, AddMemberAsWritten(db, id, body).db)
  {
    if ValidateWorkspaceId(id).Success? && ValidateInvite(body).Success? {
      var dto := ValidateInvite(body).value;
      assert AddMemberAsWritten(db, id, body).db == AddValidated(db, dto).db;
    }
  }

  lemma EditMemberRoleKeepsOwners(db: Db, body: InviteBody)
    ensures SameOwners(db, EditMemberRole(db, body).db)
  {
  }

  lemma RemoveMemberKeepsOwners(db: Db, params: RemoveMemberParams)
    ensures SameOwners(db, RemoveMember(db, params).db)
  {
  }

  lemma UpdateWorkspaceKeepsOwners(db: Db, id: Option<string>, body: UpdateWorkspaceBody)
    ensures SameOwners(db, UpdateWorkspace(db, id, body).db)
  {
  }

  /** One request to the workspace API. */
  datatype Request =
    | CreateWorkspaceRequest(createBody: CreateWorkspaceBody, freshId: string)
    | AddMemberRequest(addId: Option<string>, inviteBody: InviteBody)
    | EditMemberRoleRequest(roleBody: InviteBody)
    | RemoveMemberRequest(removeParams: RemoveMemberParams)
    | UpdateWorkspaceRequest(updateId: Option<string>, updateBody: UpdateWorkspaceBody)

  /** The store hands out fresh ids for new workspaces. */
  predicate Admissible(db: Db, req: Request)
  {
    req.CreateWorkspaceRequest? ==> FreshWorkspaceId(db, req.freshId)
  }

  /** The store after one request, each handler as the program runs it: addMember inserts even after its mismatch reply. */
  function Apply(db: Db, req: Request): Db
    requires Admissible(db, req)
  {
    match req
    case CreateWorkspaceRequest(b, newId) => CreateWorkspace(db, b, newId).db
    case AddMemberRequest(id, b) => AddMemberAsWritten(db, id, b).db
    case EditMemberRoleRequest(b) => EditMemberRole(db, b).db
    case RemoveMemberRequest(p) => RemoveMember(db, p).db
    case UpdateWorkspaceRequest(id, b) => UpdateWorkspace(db, id, b).db
  }

  /** Every creation along the run receives a fresh id. */
  predicate AdmissibleRun(db: Db, reqs: seq<Request>)
    decreases |reqs|
  {
    |reqs| == 0 || (Admissible(db, reqs[0]) && AdmissibleRun(Apply(db, reqs[0]), reqs[1..]))
  }

  function Run(db: Db, reqs: seq<Request>): Db
    requires AdmissibleRun(db, reqs)
    decreases |reqs|
  {
    if |reqs| == 0 then db else Run(Apply(db, reqs[0]), reqs[1..])
  }

  /** What one request must keep: the invariant, every workspace, and the owners of each. */
  ghost predicate Keeps(db: Db, next: Db)
  {
    && Valid(next)
    && db.workspaces.Keys <= next.workspaces.Keys
    && forall w :: w in db.workspaces ==> OwnersOf(next, w) == OwnersOf(db, w)
  }

  /** An operation that leaves the workspaces alone, agrees on owners and keeps memberships inside workspaces keeps the invariant. */
  lemma KeepsBySameOwners(db: Db, next: Db)
    requires Valid(db) && SameOwners(db, next) && next.workspaces.Keys == db.workspaces.Keys
    requires forall k :: k in next.members ==> k.workspaceId in next.workspaces
    ensures Keeps(db, next)
  {
    SameOwnerSets(db, next);
  }

  lemma CreateKeeps(db: Db, b: CreateWorkspaceBody, newId: string)
    requires Valid(db) && FreshWorkspaceId(db, newId)
    ensures Keeps(db, CreateWorkspace(db, b, newId).db)
  {
    var next := CreateWorkspace(db, b, newId).db;
    if ValidateCreateWorkspace(b).Success? {
      CreateOwners(db, b, newId);
      forall k | k in next.members ensures k.workspaceId in next.workspaces {
        if k.workspaceId != newId {
          assert RoleOf(next, k.userId, k.workspaceId) == RoleOf(db, k.userId, k.workspaceId);
        }
      }
      assert |{ValidateCreateWorkspace(b).value.userId}| == 1;
    }
  }

  /** addMember as written, its insert after the mismatch reply included, keeps the invariant. */
  lemma AddKeeps(db: Db, id: Option<string>, b: InviteBody)
    requires Valid(db)
    ensures Keeps(db, AddMemberAsWritten(db, id, b).db)
  {
    var next := AddMemberAsWritten(db, id, b).db;
    AddMemberAsWrittenKeepsOwners(db, id, b);
    assert next.workspaces == db.workspaces;
    forall k | k in next.members ensures k.workspaceId in next.workspaces {
      if k !in db.members {
        assert RoleOf(next, k.userId, k.workspaceId) != RoleOf(db, k.userId, k.workspaceId);
      }
    }
    KeepsBySameOwners(db, next);
  }

  lemma EditKeeps(db: Db, b: InviteBody)
    requires Valid(db)
    ensures Keeps(db, EditMemberRole(db, b).db)
  {
    var next := EditMemberRole(db, b).db;
    EditMemberRoleKeepsOwners(db, b);
    forall k | k in next.members ensures k.workspaceId in next.workspaces {
      if k !in db.members {
        assert RoleOf(next, k.userId, k.workspaceId) != RoleOf(db, k.userId, k.workspaceId);
      }
    }
    KeepsBySameOwners(db, next);
  }

  lemma RemoveKeeps(db: Db, p: RemoveMemberParams)
    requires Valid(db)
    ensures Keeps(db, RemoveMember(db, p).db)
  {
    var next := RemoveMember(db, p).db;
    RemoveMemberKeepsOwners(db, p);
    forall k | k in next.members ensures k.workspaceId in next.workspaces {
      if k !in db.members {
        assert RoleOf(next, k.userId, k.workspaceId) != RoleOf(db, k.userId, k.workspaceId);
      }
    }
    KeepsBySameOwners(db, next);
  }

  lemma UpdateKeeps(db: Db, id: Option<string>, b: UpdateWorkspaceBody)
    requires Valid(db)
    ensures Keeps(db, UpdateWorkspace(db, id, b).db)
  {
    UpdateWorkspaceKeepsOwners(db, id, b);
    SameOwnerSets(db, UpdateWorkspace(db, id, b).db);
  }

  /** One request keeps the invariant and the owners of every workspace that already existed. */
  lemma ApplyKeeps(db: Db, req: Request)
    requires Valid(db) && Admissible(db, req)
    ensures Valid(Apply(db, req))
    ensures db.workspaces.Keys <= Apply(db, req).workspaces.Keys
    ensures forall w :: w in db.workspaces ==> OwnersOf(Apply(db, req), w) == OwnersOf(db, w)
  {
    match req {
      case CreateWorkspaceRequest(b, newId) => CreateKeeps(db, b, newId);
      case AddMemberRequest(id, b) => AddKeeps(db, id, b);
      case EditMemberRoleRequest(b) => EditKeeps(db, b);
      case RemoveMemberRequest(p) => RemoveKeeps(db, p);
      case UpdateWorkspaceRequest(id, b) => UpdateKeeps(db, id, b);
    }
  }

  /**
   * Along any run of requests the invariant holds throughout, and the owner
   * set of every workspace that existed at the start never changes.
   */
  lemma {:induction false} RunKeepsOwners(db: Db, reqs: seq<Request>)
    requires Valid(db) && AdmissibleRun(db, reqs)
    ensures Valid(Run(db, reqs))
    ensures forall w :: w in db.workspaces ==> OwnersOf(Run(db, reqs), w) == OwnersOf(db, w)
    decreases |reqs|
  {
    if |reqs| > 0 {
      var next := Apply(db, reqs[0]);
      ApplyKeeps(db, reqs[0]);
      RunKeepsOwners(next, reqs[1..]);
    }
  }

  /** The empty store satisfies the invariant, so every reachable store does. */
  lemma EmptyValid()
    ensures Valid(Db(map[], map[]))
  {
  }
}

=== FILE: wrappers.dfy ===
/** Failure-compatible wrappers shared by every module of the model. */
module Wrappers {

  /** An optional value: `None` stands for a missing one. */
  datatype Option<+T> = None | Some(value: T)

  /** The outcome of a validation: the parsed value, or the error it raised. */
  datatype Result<+T, +E> = Success(value: T) | Failure(error: E)
}
